=== FILE: README.md ===
# Banking layer of Capetain-Cetriva, modelled in Dafny

This project models the banking utilities of the Capetain-Cetriva repository:

- the ABA routing-number validator (`validate_routing_number`);
- the nine-digit account-number generator (`generate_account_number`);
- the routing-number resolver with its 24-hour TTL cache and built-in bank table (`get_routing_number`, `load_cache`, `save_cache`);
- the ACH gateway stand-in (`ACHPayments.create_payment`, `get_payment_status`);
- the `BankingUtils` orchestration: exception-swallowing wrappers, the single payment on routing number `021000021`, and the 60/30/10 profit allocation whose Public Equities share is halved unless the market trend is positive;
- the CUDA-version rule `NVIDIAIntegration._check_blackwell_compatibility`.

Everything is pure. Time, randomness, the cache file and every collaborator are parameters:

- the clock is read twice per lookup: `now` is the `time.time()` that `load_cache` filters with (get_routing_number.py:22), and `stampTime` is the later `time.time()` whose `int()` stamps a new entry (get_routing_number.py:69);
- `draws` are the values returned by `random.randint(0, 9)`;
- `Store` is the cache file;
- collaborator calls return an `Outcome` (`Ok(value)` or `Exn(message)`), so a raised exception is a value the wrappers can inspect.

An allocation run returns a record with three things: the returned dictionary (or the exception that escaped), the payment requests issued, and the number of generator calls. This lets the call counts the code implies be stated as contracts.

Files and modules:

| file | module | models |
|---|---|---|
| outcomes.dfy | Outcomes | `Option` (value or `None`), `Outcome` (returned or raised) |
| ascii.dfy | Ascii | digits, `isdigit`, `lower` restricted to ASCII |
| routing_validator.dfy | RoutingValidator | validate_routing_number.py |
| account_generator.dfy | AccountGenerator | generate_account_number.py |
| routing_resolver.dfy | RoutingResolver | get_routing_number.py |
| ach_payments.dfy | AchPayments | ach_payments.py |
| banking_utils.dfy | BankingUtils | banking_utils.py |
| blackwell.dfy | Blackwell | nvidia_integration.py, compatibility check only |
| generator_wiring.dfy | GeneratorWiring | the call from banking_utils.py into the real generator (see Findings) |

Some properties of the code that a reader might not expect:

- The account generator computes no check digit. It draws nine free digits.
- Routing lookup uses a fixed built-in table, with no retries.
- `create_payment` checks nothing: any amount and any strings succeed.
- An exception from the trend pipeline is not caught. It escapes `allocate_and_spend_profits` after the Alternative Assets bucket has been processed, and paid if its account was generated. `BankingUtils.AllocateAndSpendProfits` states this.

Some tests disagree with the code. The model follows the code here too:

- test_get_routing_number.py:19-54 patches an HTTP client the module does not use.
- test_generate_account_number.py:14-22 passes a length the generator does not accept.
- test_performance_and_edge_cases.py:37-43 expects ValueError where the wrapper returns `None`.
- test_performance_and_edge_cases.py:15-19 expects `generate_account(12)` to return an account. As written it always returns `None` (see Findings).
- test_validate_routing_number.py:22-23 expects False for the integer 123456789. `len()` at validate_routing_number.py:7 raises TypeError on it, and `RoutingValidator.ValidateRoutingNumberOf(Unsized)` raises accordingly.

## Model

| member | source | states |
|---|---|---|
| RoutingValidator.ValidateRoutingNumber | validate_routing_number.py:1-16 | A string whose length is not 9 is rejected. A 9-character string with a non-digit is rejected. A 9-digit string is accepted iff 3·(d0+d3+d6) + 7·(d1+d4+d7) + (d2+d5+d8) ≡ 0 mod 10, so the verdict depends only on the nine digit values, by position. |
| RoutingValidator.NineDigitSum | validate_routing_number.py:10-15 | The positional 3-7-1 fold over nine digits equals the checksum grouped by position class, as the source writes it. |
| RoutingValidator.ValidIffWeightedSum | validate_routing_number.py:7-16 | For nine digits, the verdict is the positional fold modulo 10. |
| RoutingValidator.FixedRoutingNumberIsValid | test_validate_routing_number.py:10 | "021000021" is accepted (its checksum is 30). |
| RoutingValidator.SequentialDigitsRejected | test_validate_routing_number.py:19-20 | "123456789" is rejected for its checksum (159). |
| RoutingValidator.MalformedRejected | test_validate_routing_number.py:12-17 | Eight and ten digits, a trailing letter and the empty string are rejected. |
| RoutingValidator.WeightedSumOneChange | validate_routing_number.py:11-15 | Changing one digit moves the weighted sum by that position's weight times the change. |
| RoutingValidator.WeightTimesDifference | validate_routing_number.py:12-14 | No weight (3, 7 or 1) times a non-zero digit difference is a multiple of ten. |
| RoutingValidator.WeightedSumDetectsSingleError | validate_routing_number.py:11-16 | For digit strings of any length that differ in exactly one position, at most one of them has a 3-7-1 weighted sum that is a multiple of ten. |
| RoutingValidator.SingleDigitErrorDetected | validate_routing_number.py:11-16 | Every single-digit alteration of an accepted routing number is rejected. |
| RoutingValidator.ValidateRoutingNumberOf | validate_routing_number.py:7 | For a Python value: a string gets the string verdict. A value without `len()` raises. A sized non-string raises iff its length is 9 (it reaches `isdigit`) and otherwise is False. Only a string can be accepted. |
| AccountGenerator.AccountNumber | generate_account_number.py:8 | The output has length 9, is all digits, and character i is the value of draw i. |
| AccountGenerator.DrawsOf | generate_account_number.py:8 | The digit values of any nine-digit string form a valid draw sequence. |
| AccountGenerator.EveryNineDigitStringPossible | generate_account_number.py:8 | Every nine-digit string, leading zeros included, is produced by some draws. |
| AccountGenerator.OutputDeterminesDraws | generate_account_number.py:8 | Distinct draws give distinct account numbers. |
| AccountGenerator.NoCheckDigit | generate_account_number.py:5-8 | With eight draws fixed, two different last draws give outputs that agree on eight characters and differ in the ninth. No check digit is imposed. |
| RoutingResolver.Truncate | get_routing_number.py:69 | `int(now)` truncates toward zero: within one unit below a non-negative value and one unit above a negative one. |
| RoutingResolver.LoadCache | get_routing_number.py:16-28 | A missing or unreadable store, or one entry whose timestamp cannot be read, loads as the empty map. Otherwise an entry is kept iff now − timestamp < 86400, with its data unchanged. |
| RoutingResolver.SaveCache | get_routing_number.py:31-36 | The written file holds exactly the cache's keys, each with a readable timestamp. |
| RoutingResolver.SaveLoadRoundTrip | get_routing_number.py:16-36 | Loading what was saved gives the cache minus the entries expired by then, and gives the cache itself when none has expired. |
| RoutingResolver.GetRoutingNumber | get_routing_number.py:39-74 | A hit returns the stored string, or None for a non-string value, or raises if the member is missing, and saves nothing. A miss on a name the table maps to a number returns it and saves the loaded cache plus exactly one entry {number, int(stampTime)} under the lower-cased key, stamped with the second clock reading, leaving every other entry unchanged. Any other miss returns None and saves nothing. |
| RoutingResolver.CaseInsensitive | get_routing_number.py:49-50 | Names equal after lower-casing resolve identically, including what is saved. |
| RoutingResolver.ResultFromCacheOrTable | get_routing_number.py:50-71 | A returned number is either stored in the cache file under the lower-cased name or is the built-in table's value for it. |
| RoutingResolver.SecondLookupIsCacheHit | get_routing_number.py:48-71 | A miss that resolves and saves, followed by a lookup whose load-time reading is within the TTL of the saved stamp int(stampTime), and of the same name in any letter case, makes the second lookup a hit with the same number and no save. |
| RoutingResolver.ExpiredEntryRefreshed | get_routing_number.py:23-70 | A stored entry at least 86400 s old is ignored. The table is consulted and the entry is re-saved stamped with int() of the second clock reading. |
| RoutingResolver.TtlBoundary | get_routing_number.py:13-23 | An entry exactly 86400 s old is dropped; one 86399 s old is kept. |
| RoutingResolver.UnreadableTimestampEmptiesCache | get_routing_number.py:18-27 | One entry whose timestamp float() cannot read empties the whole loaded cache. |
| RoutingResolver.Persist | get_routing_number.py:31-36 | A call that saved, with a successful write, leaves a file with exactly the saved keys that loads back as the saved cache minus its expired entries. A call that saved nothing, or whose write failed (the error is swallowed), leaves the store unchanged. |
| RoutingResolver.PersistKeepsKeysLowerCase | get_routing_number.py:49-70 | If every name in the cache file is lower case, that still holds after any resolution, whether or not the save succeeds. |
| AchPayments.CreatePayment | ach_payments.py:13-42 | For every input the response has status "success" and transaction id "ACH1234567890", and it echoes account, routing number, amount and description. |
| AchPayments.CreatePaymentWithoutDescription | ach_payments.py:13-19 | Without a description, the echoed description is the empty string. |
| AchPayments.GetPaymentStatus | ach_payments.py:44-58 | The response carries the given transaction id and status "completed". |
| AchPayments.CreatePaymentInjective | ach_payments.py:34-41 | The response determines the request: different requests never share a response. |
| AchPayments.NoValidation | ach_payments.py:30-42 | A non-positive amount with empty strings still succeeds. |
| AchPayments.CreatedPaymentCompleted | ach_payments.py:40-58 | Querying the status of any created payment's id reports "completed". |
| BankingUtils.GenerateAccount | banking_utils.py:38-61 | Yields the generated string iff generation returns and the validator returns true. A generator exception, a validator exception or a false verdict all yield None. |
| BankingUtils.GetRouting | banking_utils.py:63-80 | Passes the resolver's result through unchanged. An exception becomes None. |
| BankingUtils.ValidateRouting | banking_utils.py:82-102 | True iff the validator returns true. A raising validator gives False. |
| BankingUtils.CreateAchPayment | banking_utils.py:104-129 | Some iff the gateway returns, and then its response unchanged. A raising gateway gives None. |
| BankingUtils.GetAchPaymentStatus | banking_utils.py:131-148 | Some iff the status query returns, and then its response unchanged. A raising query gives None. |
| BankingUtils.WrappersOverRealGateway | banking_utils.py:118-148 | Over the ACH stand-in, both wrappers always answer: a "success" response echoing the request, and status "completed". |
| BankingUtils.ValidateRoutingOverRealValidator | banking_utils.py:93-102 | Over the real validator, validate_routing is true iff the argument is a string passing the 3-7-1 check, so non-string input gives False. |
| BankingUtils.ProjectBankRouting | banking_utils.py:74-99 | With no cache file, "Capetain Cetriva" resolves through get_routing to "021000021", which validate_routing accepts. |
| BankingUtils.GetRoutingSwallowsMissingField | banking_utils.py:74-80 | A cached entry without a routing_number member makes the resolver raise, and get_routing answer None. |
| BankingUtils.SpendProfitsForOscar | banking_utils.py:207-226 | Pays on "021000021". A supplied account (even empty) is used as-is, without generating. With no account the generator is called once. If generation fails, the result is None and there is no payment. Otherwise exactly one payment of the amount and description is made, and its wrapped response is returned. |
| BankingUtils.BucketAmount | banking_utils.py:254-266 | For a non-negative total, a bucket's amount is between zero and its full share. For a non-zero total it equals the full share iff the bucket is not Public Equities or the trend is positive. Otherwise it is exactly half the share. |
| BankingUtils.TrendReadsLastTarget | banking_utils.py:263 | Absent or empty trend data is not positive. Otherwise the trend is positive iff the last target is 1; earlier rows do not matter. |
| BankingUtils.ProcessBuckets | banking_utils.py:253-277 | The loop calls the generator at most once per bucket and pays at most once per generator call. A completed loop has one entry per bucket. An exception result is the trend pipeline's own exception, and arises only when Public Equities is among the buckets. |
| BankingUtils.BudgetIsTotal | banking_utils.py:246-250 | The shares 0.60, 0.30 and 0.10 add up to the whole total. |
| BankingUtils.ProcessBucketsStep | banking_utils.py:253-277 | One loop iteration makes one generator call and at most one payment, for the bucket's amount, and prepends that bucket's entry. |
| BankingUtils.ProcessBucketsShape | banking_utils.py:252-280 | Without a trend exception, the loop returns one entry per bucket in order. The generator is called once per bucket and the gateway once per generated account. |
| BankingUtils.ProcessBucketsEntries | banking_utils.py:269-277 | Without a trend exception, a bucket's entry is None when its generation failed. Otherwise it is the wrapped gateway response to that bucket's own request. |
| BankingUtils.ProcessBucketsPayments | banking_utils.py:269-276 | Every payment is on "021000021" with description "<description> - Allocation to <bucket>" for one of the buckets. |
| BankingUtils.ProcessBucketsWithinShares | banking_utils.py:246-276 | For a non-negative total, the loop pays at most the buckets' full shares in sum. |
| BankingUtils.AllocateAndSpendProfits | banking_utils.py:228-280 | Returns exactly the keys Alternative Assets, Public Equities, Digital Assets, in that order. Each entry is None on failed generation, otherwise the response to its own request. There are 3 generator calls and one payment per generated account. Every payment is on a checksum-valid routing number with a bucket's description. Payments never exceed a non-negative total. A trend-pipeline exception escapes after the first bucket has been processed (and paid, if its account was generated), with one generator call. |
| BankingUtils.AllocationPayments | banking_utils.py:253-277 | With the trend available, the payments are, in bucket order, one per generated account for total·0.60, total·0.30 (halved unless the trend is positive) and total·0.10. |
| BankingUtils.TenThousandSplit | banking_utils.py:246-267 | 10000 splits into 6000, 3000 (1500 when the trend is not positive) and 1000. The full shares add up to 10000. |
| BankingUtils.MiddleGenerationFails | banking_utils.py:271-277 | If only the second generation fails, the first and third buckets are paid and the second is None. There are 3 generator calls and 2 payments. |
| Blackwell.Split | nvidia_integration.py:36 | `str.split('.')` returns at least one part and no part contains the separator. |
| Blackwell.JoinSplit | nvidia_integration.py:36 | Joining the parts with '.' gives the original string back. |
| Blackwell.SplitAfterPiece | nvidia_integration.py:36 | A dot-free leading piece followed by '.' is the first part, and the rest splits independently. |
| Blackwell.ParseDigits | nvidia_integration.py:36 | The digit reader accepts every non-empty run of plain digits. `int()` then applies its digit limit to the result (see ParseIntGrammar). |
| Blackwell.ParseIntDecimal | nvidia_integration.py:36 | `int()` of at most 4300 plain decimal digits is their decimal value. More than 4300 raise ValueError. |
| Blackwell.ParseDigitsGrouped | nvidia_integration.py:36 | The digit reader accepts a string iff it is digit groups separated by single underscores (no leading, trailing or doubled underscore). Its value is the digits, underscores left out, read in decimal. |
| Blackwell.ParseIntGrammar | nvidia_integration.py:36 | `int()` succeeds iff the stripped text is an optional '+' or '-' followed by grouped digits, with at most 4300 digits once underscores are left out. The value is those digits in decimal, negated after '-'. |
| Blackwell.ParseIntIgnoresSurroundingSpace | nvidia_integration.py:36 | Whitespace before and after the number does not change what `int()` returns. |
| Blackwell.IntExamples | nvidia_integration.py:36 | " 12 " gives 12, "-1" gives -1 and "1_2" gives 12. "1__2", "_1" and "+" raise. |
| Blackwell.CheckBlackwellCompatibility | nvidia_integration.py:30-40 | No GPU gives false. An absent or empty version gives false. Otherwise the result is returned iff there are two parts that int() accepts, and it is true iff major > 12, or major = 12 and minor ≥ 4. |
| Blackwell.TwoComponentVersion | nvidia_integration.py:36-37 | "a.b" with parts that `int()` accepts is compatible iff (a, b) is at least (12, 4) lexicographically. |
| Blackwell.ExtraComponentsIgnored | nvidia_integration.py:36 | "a.b.rest" gives the same result as "a.b". |
| Blackwell.SingleComponentRaises | nvidia_integration.py:36 | A non-empty version without a dot raises. |
| Blackwell.NonNumericMajorRaises | nvidia_integration.py:36 | A major component int() rejects raises. |
| Blackwell.OverlongMajorRaises | nvidia_integration.py:36 | A major component of more than 4300 plain digits raises, as `int()` refuses it. |
| Blackwell.Version12Point4 | nvidia_integration.py:36-37 | "12.4" and "12.4.1" are compatible. |
| Blackwell.Version12Point3 | nvidia_integration.py:36-37 | "12.3" is not compatible. |
| Blackwell.Version13Point0 | nvidia_integration.py:36-37 | "13.0" is compatible. |
| GeneratorWiring.CallGenerator | generate_account_number.py:3-8 | With no argument the generator returns nine digits. Any positional argument raises TypeError. |
| GeneratorWiring.GenerateAccountAsWritten | banking_utils.py:49-61 | generate_account as written, passing its length to the generator, yields None for every length, draw and validator. |
| GeneratorWiring.GenerateAccountCorrected | banking_utils.py:49-61 | Corrects the default `generate_account()` call only, the one both payment paths make. With the generator called without an argument, an account is yielded iff the validator accepts the drawn number. That account is the nine drawn digits. |
| GeneratorWiring.AsWrittenNeverGenerates | banking_utils.py:50 | Even a validator that accepts everything gets no account from the as-written call. |
| GeneratorWiring.AsWrittenSpendNeverPays | banking_utils.py:220-226 | As written, spend_profits_for_oscar without an account never pays and returns None. |
| GeneratorWiring.CorrectedSpendPays | banking_utils.py:220-226 | Corrected, with an accepting validator, the drawn number is paid on "021000021". |
| GeneratorWiring.AsWrittenAllocationPaysNothing | banking_utils.py:271-277 | As written, the allocation issues no payment and all three entries are None. |
| GeneratorWiring.CorrectedAllocationPaysEveryBucket | banking_utils.py:271-277 | Corrected, with an accepting validator and an answering gateway, all three buckets are paid. |

## Left out

- Python text semantics: `str.isdigit`, `str.lower`, `str.strip` and `int()` are modelled on ASCII only. Unicode digits such as '²' pass `isdigit()` but make `int()` raise inside `validate_routing_number`. That path is not modelled.
- Blackwell.ParseInt: follows the interpreter's default limit of 4300 decimal digits (CPython 3.11 and later, 3.7.14, 3.8.14, 3.9.14 and 3.10.7). A limit changed with `sys.set_int_max_str_digits` or `PYTHONINTMAXSTRDIGITS` is not modelled, and neither are older interpreters that have no limit.
- Floating point: amounts, shares and clock readings are Dafny reals. Rounding of the float products `total * 0.60` and so on is not modelled, and neither are NaN timestamps.
- The market-trend pipeline (`MarketTrendAnalysis` download, feature engineering and training) and `nvidia_integration.log_project_status`. Both run only for the Public Equities bucket. They are one input: the `Target` column of the training data, or the exception they raised.
- The Plaid wrappers (banking_utils.py:150-205), `plaid_integration.py`, and the GPU monitoring and allocation code of `nvidia_integration.py`. They are thin layers over third-party clients and hardware.
- Cache-file I/O and logging. The JSON file is the abstract `Store`. Members of an entry other than `routing_number` and `timestamp` are ignored. A failed write is swallowed and modelled as leaving the store as it was. A partially written file is not modelled.
- Randomness. A generator call is its outcome (`draw(i)` for the i-th call). The length argument `generate_account` passes on only reaches that outcome.
- The import of `is_valid_account_number` at banking_utils.py:13 names a function that generate_account_number.py does not define, so the module as written cannot be imported. The account validator is modelled as a parameter instead.
- Account numbers of a requested length. The generator takes no length and always makes nine digits, so `GeneratorWiring.GenerateAccountCorrected` corrects only the default call.
- The web front end (`app.py`), blockchain and Infura code (`model_setup.py`, `create_infura_project.py`), the print-only placeholders (`avatar_interaction.py`, `fund_in_a_box.py`), the end-to-end scripts and the test runners.
- RoutingValidator.ValidateRoutingNumberOf: reduces Python values to three kinds: strings, sized non-strings and values without `len()`. A sized non-string of length 9 that has its own `isdigit()` method, such as bytes, is not distinguished: the model has it raise.

## Findings

| source | as written | input that shows it | evidently intended | confidence | as-written member | corrected member |
|---|---|---|---|---|---|---|
| banking_utils.py:50 | `generate_account` calls `generate_account_number(length)`, but generate_account_number.py:3 declares no parameter. The call raises TypeError, which line 59 turns into `None`. | `generate_account(9)` with any random draws. As a consequence, `spend_profits_for_oscar(a, d)` never pays and `allocate_and_spend_profits` leaves all three buckets `None`. | A generated nine-digit number is returned when the validator accepts it, so the payment paths pay. | not executed; high | GeneratorWiring.GenerateAccountAsWritten | GeneratorWiring.GenerateAccountCorrected |

=== FILE: account_generator.dfy ===
/** `generate_account_number()`: nine independent `random.randint(0, 9)` draws,
    each rendered as one decimal digit. The random source is a parameter: the
    sequence of values the nine draws return. */
module AccountGenerator {
  import opened Ascii

  const AccountLength: nat := 9

  /** A value `random.randint(0, 9)` can return (both ends inclusive). */
  predicate IsDraw(d: int) {
    0 <= d <= 9
  }

  /** The values of the nine draws, in order. */
  predicate AreDraws(draws: seq<int>) {
    |draws| == AccountLength && forall i :: 0 <= i < |draws| ==> IsDraw(draws[i])
  }

  /** Values the nine draws of one call can return. */
  type Draws = d: seq<int> | AreDraws(d) witness [0, 0, 0, 0, 0, 0, 0, 0, 0]

  /** `''.join(str(d) for d in draws)`. */
  function AccountNumber(draws: seq<int>): (s: string)
    requires AreDraws(draws)
    ensures |s| == AccountLength && IsDigitString(s)
    ensures forall i :: 0 <= i < AccountLength ==> DigitValue(s[i]) == draws[i]
  {
    seq(AccountLength, i requires 0 <= i < AccountLength => DigitChar(draws[i]))
  }

  /** The digit values of a digit string: the draws that produce it. */
  function DrawsOf(s: string): (draws: seq<int>)
    requires |s| == AccountLength && AllDigits(s)
    ensures AreDraws(draws)
  {
    seq(AccountLength, i requires 0 <= i < AccountLength => DigitValue(s[i]) as int)
  }

  /** Every nine-digit string, leading zeros included, is a possible output. */
  lemma EveryNineDigitStringPossible(s: string)
    requires |s| == AccountLength && AllDigits(s)
    ensures AccountNumber(DrawsOf(s)) == s
  {
    var r := AccountNumber(DrawsOf(s));
    forall i | 0 <= i < AccountLength
      ensures r[i] == s[i]
    {
      DigitCharOfValue(s[i]);
    }
  }

  /** Different draws give different account numbers: the output keeps every draw. */
  lemma OutputDeterminesDraws(a: seq<int>, b: seq<int>)
    requires AreDraws(a) && AreDraws(b)
    requires AccountNumber(a) == AccountNumber(b)
    ensures a == b
  {
    assert forall i :: 0 <= i < AccountLength ==> a[i] == DigitValue(AccountNumber(a)[i]);
  }

  /** No check digit: with the first eight draws fixed, two different last draws
      give two outputs that agree on eight characters and differ in the ninth. */
  lemma NoCheckDigit(prefix: seq<int>, d: int, e: int)
    requires |prefix| == AccountLength - 1 && forall i :: 0 <= i < |prefix| ==> IsDraw(prefix[i])
    requires IsDraw(d) && IsDraw(e) && d != e
    ensures AreDraws(prefix + [d]) && AreDraws(prefix + [e])
    ensures AccountNumber(prefix + [d])[..AccountLength - 1] == AccountNumber(prefix + [e])[..AccountLength - 1]
    ensures AccountNumber(prefix + [d]) != AccountNumber(prefix + [e])
  {
    var a := prefix + [d];
    var b := prefix + [e];
    assert AreDraws(a) && AreDraws(b);
    var x := AccountNumber(a);
    var y := AccountNumber(b);
    forall i | 0 <= i < AccountLength - 1
      ensures x[i] == y[i]
    {
      DigitCharOfValue(x[i]);
      DigitCharOfValue(y[i]);
    }
    assert DigitValue(x[8]) != DigitValue(y[8]);
  }
}

=== FILE: ach_payments.dfy ===
/** `ach_payments.py`: the ACH gateway stand-in. Both operations echo their
    arguments into a fixed-shape response and validate nothing. Amounts are
    reals (the source's floats). */
module AchPayments {

  const SuccessStatus: string := "success"
  const CompletedStatus: string := "completed"
  const PlaceholderTransactionId: string := "ACH1234567890"

  /** The default of `create_payment`'s `description` argument. */
  const DefaultDescription: string := ""

  /** The arguments of one `create_payment` call. */
  datatype PaymentRequest = PaymentRequest(accountNumber: string, routingNumber: string, amount: real, description: string)

  /** The dictionary `create_payment` returns. */
  datatype PaymentResponse = PaymentResponse(
    status: string,
    accountNumber: string,
    routingNumber: string,
    amount: real,
    description: string,
    transactionId: string)

  /** The dictionary `get_payment_status` returns. */
  datatype StatusResponse = StatusResponse(transactionId: string, status: string)

  /** The request a payment response echoes. */
  function EchoedRequest(r: PaymentResponse): PaymentRequest {
    PaymentRequest(r.accountNumber, r.routingNumber, r.amount, r.description)
  }

  /** `ACHPayments.create_payment(account_number, routing_number, amount, description)`:
      accepts every input, reports success under the placeholder id, and echoes the request. */
  function CreatePayment(req: PaymentRequest): (r: PaymentResponse)
    ensures r.status == SuccessStatus
    ensures r.transactionId == PlaceholderTransactionId
    ensures EchoedRequest(r) == req
  {
    PaymentResponse(SuccessStatus, req.accountNumber, req.routingNumber, req.amount, req.description,
                    PlaceholderTransactionId)
  }

  /** `create_payment` called without a description. */
  function CreatePaymentWithoutDescription(accountNumber: string, routingNumber: string, amount: real): (r: PaymentResponse)
    ensures r.description == DefaultDescription
    ensures r.accountNumber == accountNumber && r.routingNumber == routingNumber && r.amount == amount
  {
    CreatePayment(PaymentRequest(accountNumber, routingNumber, amount, DefaultDescription))
  }

  /** `ACHPayments.get_payment_status(transaction_id)`. */
  function GetPaymentStatus(transactionId: string): (r: StatusResponse)
    ensures r.transactionId == transactionId
    ensures r.status == CompletedStatus
  {
    StatusResponse(transactionId, CompletedStatus)
  }

  /** Distinct requests get distinct responses: the response determines its request. */
  lemma CreatePaymentInjective(a: PaymentRequest, b: PaymentRequest)
    requires CreatePayment(a) == CreatePayment(b)
    ensures a == b
  {
    assert EchoedRequest(CreatePayment(a)) == a;
  }

  /** No validation: a zero or negative amount and empty strings still succeed. */
  lemma NoValidation(amount: real)
    requires amount <= 0.0
    ensures CreatePayment(PaymentRequest("", "", amount, "")).status == SuccessStatus
  {
  }

  /** The status of any created payment, queried by its id, is "completed". */
  lemma CreatedPaymentCompleted(req: PaymentRequest)
    ensures GetPaymentStatus(CreatePayment(req).transactionId) == StatusResponse(PlaceholderTransactionId, CompletedStatus)
  {
  }
}

=== FILE: ascii.dfy ===
/** Character-level helpers. Python's `str.isdigit` and `str.lower` are
    Unicode-aware; the model restricts both to ASCII. */
module Ascii {

  predicate IsDigit(c: char) {
    '0' <= c <= '9'
  }

  /** Every character is an ASCII digit (holds of the empty string). */
  predicate AllDigits(s: string) {
    forall i :: 0 <= i < |s| ==> IsDigit(s[i])
  }

  /** Python's `s.isdigit()`: non-empty and every character a digit. */
  predicate IsDigitString(s: string) {
    |s| > 0 && AllDigits(s)
  }

  /** `int(c)` for one digit character. */
  function DigitValue(c: char): (d: nat)
    requires IsDigit(c)
    ensures d < 10
  {
    c as int - '0' as int
  }

  /** `str(d)` for one decimal digit. */
  function DigitChar(d: nat): (c: char)
    requires d < 10
    ensures IsDigit(c) && DigitValue(c) == d
  {
    (d + '0' as int) as char
  }

  lemma DigitCharOfValue(c: char)
    requires IsDigit(c)
    ensures DigitChar(DigitValue(c)) == c
  {
  }

  function LowerChar(c: char): char {
    if 'A' <= c <= 'Z' then (c as int - 'A' as int + 'a' as int) as char else c
  }

  /** Python's `s.lower()`, ASCII letters only. */
  function Lower(s: string): (r: string)
    ensures |r| == |s|
    ensures forall i :: 0 <= i < |s| ==> r[i] == LowerChar(s[i])
  {
    seq(|s|, i requires 0 <= i < |s| => LowerChar(s[i]))
  }

  predicate IsLower(s: string) {
    forall i :: 0 <= i < |s| ==> !('A' <= s[i] <= 'Z')
  }

  /** Lower-casing leaves no upper-case letter, and lower-case text is its own lower case. */
  lemma LowerIsLower(s: string)
    ensures IsLower(Lower(s))
    ensures IsLower(s) ==> Lower(s) == s
  {
  }
}

=== FILE: banking_utils.dfy ===
/** `banking_utils.py`, class `BankingUtils`: wrappers that turn collaborator
    exceptions into `None`/`False`, the single-payment path and the three-bucket
    profit allocation.

    Every collaborator is a parameter returning an `Outcome`:
    - `draw(i)`: what the i-th call of `generate_account_number` returns or raises
      (randomness and the length argument live inside it);
    - `isValid`: `is_valid_account_number`;
    - `pay`: `ACHPayments.create_payment`, taking the whole request;
    - `trend`: the market-trend pipeline's training data (`mta.data`), or the
      exception the pipeline raised. */
module BankingUtils {
  import opened Outcomes
  import opened AchPayments
  import RoutingValidator
  import RoutingResolver
  import Ascii

  /** The routing number every payment of this class is sent on. */
  const FixedRoutingNumber: string := "021000021"

  // ---------------------------------------------------------------- wrappers

  /** `BankingUtils.generate_account()`: the generated number if generation and
      validation both complete and the validator says true; otherwise `None`. */
  function GenerateAccount(generated: Outcome<string>, isValid: string -> Outcome<bool>): (account: Option<string>)
    ensures account.Some? <==> generated.Ok? && isValid(generated.value) == Ok(true)
    ensures account.Some? ==> account.value == generated.value
  {
    match generated
    case Exn(_) => None
    case Ok(a) =>
      match isValid(a)
      case Ok(true) => Some(a)
      case _ => None
  }

  /** `BankingUtils.get_routing(bank_name)`, given what `get_routing_number` did. */
  function GetRouting(lookup: Outcome<Option<string>>): (routing: Option<string>)
    ensures lookup.Ok? ==> routing == lookup.value
    ensures lookup.Exn? ==> routing == None
  {
    match lookup
    case Ok(v) => v
    case Exn(_) => None
  }

  /** `BankingUtils.validate_routing(x)`, given what the validator did with `x`. */
  function ValidateRouting(verdict: Outcome<bool>): (ok: bool)
    ensures ok <==> verdict == Ok(true)
  {
    match verdict
    case Ok(b) => b
    case Exn(_) => false
  }

  /** `BankingUtils.create_ach_payment(...)`: the gateway's response, or `None` if it raised. */
  function CreateAchPayment<R>(pay: PaymentRequest -> Outcome<R>, req: PaymentRequest): (response: Option<R>)
    ensures response.Some? <==> pay(req).Ok?
    ensures response.Some? ==> response.value == pay(req).value
  {
    Catch(pay(req))
  }

  /** `BankingUtils.get_ach_payment_status(transaction_id)`. */
  function GetAchPaymentStatus<S>(status: string -> Outcome<S>, transactionId: string): (r: Option<S>)
    ensures r.Some? <==> status(transactionId).Ok?
    ensures r.Some? ==> r.value == status(transactionId).value
  {
    Catch(status(transactionId))
  }

  /** The real gateway of `ach_payments.py`, which never raises. */
  function Gateway(req: PaymentRequest): Outcome<PaymentResponse> {
    Ok(CreatePayment(req))
  }

  /** The real status query of `ach_payments.py`. */
  function StatusQuery(transactionId: string): Outcome<StatusResponse> {
    Ok(GetPaymentStatus(transactionId))
  }

  /** Over the real gateway the wrappers always answer, with the echo responses. */
  lemma WrappersOverRealGateway(req: PaymentRequest, transactionId: string)
    ensures CreateAchPayment(Gateway, req).Some?
    ensures CreateAchPayment(Gateway, req).value.status == SuccessStatus
    ensures EchoedRequest(CreateAchPayment(Gateway, req).value) == req
    ensures GetAchPaymentStatus(StatusQuery, transactionId) == Some(StatusResponse(transactionId, CompletedStatus))
  {
  }

  /** Over the real validator, a value that is not a string is never valid, and
      a string is valid exactly when it passes the 3-7-1 check. */
  lemma ValidateRoutingOverRealValidator(x: RoutingValidator.Arg)
    ensures ValidateRouting(RoutingValidator.ValidateRoutingNumberOf(x)) <==>
      x.Str? && RoutingValidator.ValidateRoutingNumber(x.s)
  {
  }

  /** Over the real resolver with no cache file, the project's bank resolves to
      the fixed routing number, which passes the 3-7-1 check. */
  lemma ProjectBankRouting(now: real, stampTime: real)
    ensures GetRouting(RoutingResolver.GetRoutingNumber(RoutingResolver.NoFile, "Capetain Cetriva", now, stampTime).result) == Some(FixedRoutingNumber)
    ensures ValidateRouting(RoutingValidator.ValidateRoutingNumberOf(RoutingValidator.Str(FixedRoutingNumber)))
  {
    assert Ascii.Lower("Capetain Cetriva") == "capetain cetriva";
    RoutingValidator.FixedRoutingNumberIsValid();
  }

  /** A cached entry without a `routing_number` member makes `get_routing_number`
      raise; `get_routing` answers `None`. */
  lemma GetRoutingSwallowsMissingField(store: RoutingResolver.Store, bankName: string, now: real, stampTime: real)
    requires Ascii.Lower(bankName) in RoutingResolver.LoadCache(store, now)
    requires RoutingResolver.LoadCache(store, now)[Ascii.Lower(bankName)].routingNumber.Missing?
    ensures RoutingResolver.GetRoutingNumber(store, bankName, now, stampTime).result.Exn?
    ensures GetRouting(RoutingResolver.GetRoutingNumber(store, bankName, now, stampTime).result) == None
  {
  }

  // ------------------------------------------------------- single payment

  /** One call of `spend_profits_for_oscar`: its result, the payment requests it
      issued, and how many times it called the account generator. */
  datatype Spending<R> = Spending(response: Option<R>, payments: seq<PaymentRequest>, generatorCalls: nat)

  /** `BankingUtils.spend_profits_for_oscar(amount, description, account_number)`;
      `generated` is what the generator does if it is called. */
  function SpendProfitsForOscar<R>(amount: real, description: string, accountNumber: Option<string>,
                                   generated: Outcome<string>, isValid: string -> Outcome<bool>,
                                   pay: PaymentRequest -> Outcome<R>): (s: Spending<R>)
    ensures forall p :: p in s.payments ==> p.routingNumber == FixedRoutingNumber && p.amount == amount && p.description == description
    ensures accountNumber.Some? ==> s.generatorCalls == 0 && s.payments == [PaymentRequest(accountNumber.value, FixedRoutingNumber, amount, description)]
    ensures accountNumber.None? ==> s.generatorCalls == 1
    ensures accountNumber.None? && GenerateAccount(generated, isValid).None? ==> s.response == None && s.payments == []
    ensures accountNumber.None? && GenerateAccount(generated, isValid).Some? ==>
      s.payments == [PaymentRequest(generated.value, FixedRoutingNumber, amount, description)]
    ensures |s.payments| == 1 ==> s.response == CreateAchPayment(pay, s.payments[0])
  {
    var account := if accountNumber.Some? then accountNumber else GenerateAccount(generated, isValid);
    var calls := if accountNumber.Some? then 0 else 1;
    if account.None? then
      Spending(None, [], calls)
    else
      var req := PaymentRequest(account.value, FixedRoutingNumber, amount, description);
      Spending(CreateAchPayment(pay, req), [req], calls)
  }

  // ------------------------------------------------------------ allocation

  /** The allocation buckets, in the order the source's dictionary lists them. */
  datatype Bucket = AlternativeAssets | PublicEquities | DigitalAssets

  const Buckets: seq<Bucket> := [AlternativeAssets, PublicEquities, DigitalAssets]

  /** The bucket's key in the returned dictionary. */
  function Name(b: Bucket): string {
    match b
    case AlternativeAssets => "Alternative Assets"
    case PublicEquities => "Public Equities"
    case DigitalAssets => "Digital Assets"
  }

  /** `total_amount * percentage`: the bucket's full share of the total, with
      the percentages 0.60, 0.30 and 0.10 of the `allocations` dictionary. */
  function ShareOf(b: Bucket, total: real): real {
    match b
    case AlternativeAssets => total * 0.60
    case PublicEquities => total * 0.30
    case DigitalAssets => total * 0.10
  }

  /** The trend pipeline's training data: absent, or the `Target` column (one value per row). */
  datatype TrendData = NoData | Frame(targets: seq<int>)

  /** The positive-trend test: data present, not empty, last target equal to 1. */
  predicate TrendPositive(d: TrendData) {
    d.Frame? && |d.targets| > 0 && d.targets[|d.targets| - 1] == 1
  }

  /** The amount paid to bucket `b`: its share, halved for Public Equities unless the trend is positive. */
  function BucketAmount(b: Bucket, total: real, positive: bool): (amount: real)
    ensures total >= 0.0 ==> 0.0 <= amount <= ShareOf(b, total)
    ensures total != 0.0 ==> (amount == ShareOf(b, total) <==> b != PublicEquities || positive)
    ensures amount * 2.0 == ShareOf(b, total) || amount == ShareOf(b, total)
  {
    if b == PublicEquities && !positive then ShareOf(b, total) * 0.5 else ShareOf(b, total)
  }

  /** `"%s - Allocation to %s" % (description, bucket)`. */
  function AllocationDescription(description: string, b: Bucket): string {
    description + " - Allocation to " + Name(b)
  }

  /** One dictionary entry of the result: the bucket and its payment response or `None`. */
  datatype BucketResult<R> = BucketResult(bucket: Bucket, response: Option<R>)

  /** One allocation run: the returned dictionary (or the exception that escaped),
      the payment requests issued, and the number of account generations. */
  datatype Allocation<R> = Allocation(results: Outcome<seq<BucketResult<R>>>, payments: seq<PaymentRequest>, generatorCalls: nat)

  /** Generations among calls `from .. from + n - 1` that yield an account. */
  function Generated(draw: nat -> Outcome<string>, isValid: string -> Outcome<bool>, from: nat, n: nat): (count: nat)
    ensures count <= n
    decreases n
  {
    if n == 0 then 0
    else (if GenerateAccount(draw(from), isValid).Some? then 1 else 0) + Generated(draw, isValid, from + 1, n - 1)
  }

  /** Total amount of a list of payment requests. */
  function SumAmounts(payments: seq<PaymentRequest>): real {
    if |payments| == 0 then 0.0 else payments[0].amount + SumAmounts(payments[1..])
  }

  /** The buckets' full shares of `total`, added up. */
  function Budget(bs: seq<Bucket>, total: real): real {
    if |bs| == 0 then 0.0 else ShareOf(bs[0], total) + Budget(bs[1..], total)
  }

  /** The payment request made for bucket `b`: none when its account generation failed. */
  function BucketPayment(b: Bucket, account: Option<string>, amount: real, description: string): (paid: seq<PaymentRequest>)
  {
    if account.None? then []
    else [PaymentRequest(account.value, FixedRoutingNumber, amount, AllocationDescription(description, b))]
  }

  /** The trend is read from the last row only: absent or empty data is not
      positive, and otherwise the verdict is whether the last target is 1. */
  lemma TrendReadsLastTarget(rows: seq<int>, last: int)
    ensures !TrendPositive(NoData) && !TrendPositive(Frame([]))
    ensures TrendPositive(Frame(rows + [last])) <==> last == 1
  {
    assert (rows + [last])[|rows|] == last;
  }

  /** The loop of `allocate_and_spend_profits` over the buckets `bs`, the first
      of which makes generator call number `calls`. The trend pipeline runs
      when the Public Equities bucket comes up; its exceptions are not caught. */
  function ProcessBuckets<R>(bs: seq<Bucket>, calls: nat, total: real, description: string,
                             draw: nat -> Outcome<string>, isValid: string -> Outcome<bool>,
                             trend: Outcome<TrendData>, pay: PaymentRequest -> Outcome<R>): (a: Allocation<R>)
    ensures a.generatorCalls <= |bs| && |a.payments| <= a.generatorCalls
    ensures a.results.Ok? ==> |a.results.value| == |bs|
    ensures a.results.Exn? ==> trend.Exn? && a.results.error == trend.error && PublicEquities in bs
    decreases |bs|
  {
    if |bs| == 0 then
      Allocation(Ok([]), [], 0)
    else
      var b := bs[0];
      if b == PublicEquities && trend.Exn? then
        Allocation(Exn(trend.error), [], 0)
      else
        var amount := BucketAmount(b, total, Positive(trend));
        var account := GenerateAccount(draw(calls), isValid);
        var paid := BucketPayment(b, account, amount, description);
        var response := if |paid| == 0 then None else CreateAchPayment(pay, paid[0]);
        var rest := ProcessBuckets(bs[1..], calls + 1, total, description, draw, isValid, trend, pay);
        Allocation(
          if rest.results.Exn? then rest.results else Ok([BucketResult(b, response)] + rest.results.value),
          paid + rest.payments,
          1 + rest.generatorCalls)
  }

  /** The trend verdict used for Public Equities (meaningful only once the pipeline returned). */
  predicate Positive(trend: Outcome<TrendData>) {
    trend.Ok? && TrendPositive(trend.value)
  }

  /** The payment request for bucket `b` paid from `account`. */
  function AllocationRequest(account: string, b: Bucket, total: real, description: string, trend: Outcome<TrendData>): PaymentRequest {
    PaymentRequest(account, FixedRoutingNumber, BucketAmount(b, total, Positive(trend)), AllocationDescription(description, b))
  }

  /** The response recorded for bucket `b`, given its generation result. */
  function EntryResponse<R>(account: Option<string>, b: Bucket, total: real, description: string,
                            trend: Outcome<TrendData>, pay: PaymentRequest -> Outcome<R>): Option<R> {
    if account.None? then None else CreateAchPayment(pay, AllocationRequest(account.value, b, total, description, trend))
  }

  /** One step of the bucket loop, when the first bucket does not abort it. */
  lemma ProcessBucketsStep<R>(bs: seq<Bucket>, calls: nat, total: real, description: string,
                              draw: nat -> Outcome<string>, isValid: string -> Outcome<bool>,
                              trend: Outcome<TrendData>, pay: PaymentRequest -> Outcome<R>)
    requires |bs| > 0 && (trend.Ok? || bs[0] != PublicEquities)
    ensures var a := ProcessBuckets(bs, calls, total, description, draw, isValid, trend, pay);
      var rest := ProcessBuckets(bs[1..], calls + 1, total, description, draw, isValid, trend, pay);
      var account := GenerateAccount(draw(calls), isValid);
      && a.generatorCalls == 1 + rest.generatorCalls
      && a.payments == BucketPayment(bs[0], account, BucketAmount(bs[0], total, Positive(trend)), description) + rest.payments
      && (rest.results.Ok? ==> a.results == Ok([BucketResult(bs[0], EntryResponse(account, bs[0], total, description, trend, pay))] + rest.results.value))
  {
  }

  /** Once the trend is available, or not needed, the loop does not abort. */
  predicate Completes(bs: seq<Bucket>, trend: Outcome<TrendData>) {
    trend.Ok? || PublicEquities !in bs
  }

  lemma CompletesTail(bs: seq<Bucket>, trend: Outcome<TrendData>)
    requires |bs| > 0 && Completes(bs, trend)
    ensures Completes(bs[1..], trend) && (trend.Ok? || bs[0] != PublicEquities)
  {
    if PublicEquities in bs[1..] { assert PublicEquities in bs; }
  }

  /** A loop that does not abort returns one entry per bucket, in order, and
      calls the generator once per bucket and the gateway once per generated account. */
  lemma {:induction false} ProcessBucketsShape<R>(bs: seq<Bucket>, calls: nat, total: real, description: string,
                                                  draw: nat -> Outcome<string>, isValid: string -> Outcome<bool>,
                                                  trend: Outcome<TrendData>, pay: PaymentRequest -> Outcome<R>)
    requires Completes(bs, trend)
    ensures var a := ProcessBuckets(bs, calls, total, description, draw, isValid, trend, pay);
      && a.results.Ok?
      && |a.results.value| == |bs|
      && (forall i :: 0 <= i < |bs| ==> a.results.value[i].bucket == bs[i])
      && a.generatorCalls == |bs|
      && |a.payments| == Generated(draw, isValid, calls, |bs|)
    decreases |bs|
  {
    if |bs| > 0 {
      CompletesTail(bs, trend);
      ProcessBucketsShape(bs[1..], calls + 1, total, description, draw, isValid, trend, pay);
      ProcessBucketsStep(bs, calls, total, description, draw, isValid, trend, pay);
    }
  }

  /** In a loop that does not abort, an entry is `None` when its account
      generation failed, and otherwise the wrapped gateway response to that
      bucket's request. */
  lemma {:induction false} ProcessBucketsEntries<R>(bs: seq<Bucket>, calls: nat, total: real, description: string,
                                                    draw: nat -> Outcome<string>, isValid: string -> Outcome<bool>,
                                                    trend: Outcome<TrendData>, pay: PaymentRequest -> Outcome<R>)
    requires Completes(bs, trend)
    ensures var a := ProcessBuckets(bs, calls, total, description, draw, isValid, trend, pay);
      && a.results.Ok?
      && |a.results.value| == |bs|
      && (forall i :: 0 <= i < |bs| ==>
            a.results.value[i].response == EntryResponse(GenerateAccount(draw(calls + i), isValid), bs[i], total, description, trend, pay))
    decreases |bs|
  {
    if |bs| > 0 {
      CompletesTail(bs, trend);
      ProcessBucketsEntries(bs[1..], calls + 1, total, description, draw, isValid, trend, pay);
      ProcessBucketsStep(bs, calls, total, description, draw, isValid, trend, pay);
      var a := ProcessBuckets(bs, calls, total, description, draw, isValid, trend, pay);
      var rest := ProcessBuckets(bs[1..], calls + 1, total, description, draw, isValid, trend, pay);
      forall i | 0 <= i < |bs|
        ensures a.results.value[i].response ==
          EntryResponse(GenerateAccount(draw(calls + i), isValid), bs[i], total, description, trend, pay)
      {
        if i > 0 {
          assert a.results.value[i] == rest.results.value[i - 1];
          assert bs[i] == bs[1..][i - 1];
          assert calls + i == (calls + 1) + (i - 1);
        }
      }
    }
  }

  lemma {:induction false} SumAmountsAppend(p: seq<PaymentRequest>, q: seq<PaymentRequest>)
    ensures SumAmounts(p + q) == SumAmounts(p) + SumAmounts(q)
    decreases |p|
  {
    if |p| == 0 {
      assert p + q == q;
    } else {
      assert (p + q)[1..] == p[1..] + q;
      SumAmountsAppend(p[1..], q);
    }
  }

  /** Every payment of the bucket loop goes on the fixed routing number, with
      the allocation description of one of the buckets. */
  lemma {:induction false} ProcessBucketsPayments<R>(bs: seq<Bucket>, calls: nat, total: real, description: string,
                                                     draw: nat -> Outcome<string>, isValid: string -> Outcome<bool>,
                                                     trend: Outcome<TrendData>, pay: PaymentRequest -> Outcome<R>)
    ensures forall p :: p in ProcessBuckets(bs, calls, total, description, draw, isValid, trend, pay).payments ==>
      && p.routingNumber == FixedRoutingNumber
      && exists b :: b in bs && p.description == AllocationDescription(description, b)
    decreases |bs|
  {
    if |bs| > 0 {
      ProcessBucketsPayments(bs[1..], calls + 1, total, description, draw, isValid, trend, pay);
      forall b | b in bs[1..] ensures b in bs { }
    }
  }

  lemma {:induction false} BudgetNonNegative(bs: seq<Bucket>, total: real)
    requires total >= 0.0
    ensures Budget(bs, total) >= 0.0
    decreases |bs|
  {
    if |bs| > 0 {
      BudgetNonNegative(bs[1..], total);
      assert ShareOf(bs[0], total) >= 0.0;
    }
  }

  /** The three shares add up to the whole total. */
  lemma BudgetIsTotal(total: real)
    ensures Budget(Buckets, total) == total
  {
    assert Buckets[1..] == [PublicEquities, DigitalAssets];
    assert Buckets[1..][1..] == [DigitalAssets];
    assert Buckets[1..][1..][1..] == [];
    assert Budget([DigitalAssets], total) == total * 0.10;
    assert Budget([PublicEquities, DigitalAssets], total) == total * 0.30 + total * 0.10;
    assert Budget(Buckets, total) == total * 0.60 + total * 0.30 + total * 0.10;
  }

  lemma BucketPaymentWithinAmount(b: Bucket, account: Option<string>, amount: real, description: string)
    requires amount >= 0.0
    ensures SumAmounts(BucketPayment(b, account, amount, description)) <= amount
  {
    var paid := BucketPayment(b, account, amount, description);
    if |paid| > 0 { assert paid[1..] == []; }
  }

  /** With a non-negative total, the bucket loop pays at most the buckets' shares of it. */
  lemma {:induction false} ProcessBucketsWithinShares<R>(bs: seq<Bucket>, calls: nat, total: real, description: string,
                                                         draw: nat -> Outcome<string>, isValid: string -> Outcome<bool>,
                                                         trend: Outcome<TrendData>, pay: PaymentRequest -> Outcome<R>)
    ensures total >= 0.0 ==>
      SumAmounts(ProcessBuckets(bs, calls, total, description, draw, isValid, trend, pay).payments) <= Budget(bs, total)
    decreases |bs|
  {
    var a := ProcessBuckets(bs, calls, total, description, draw, isValid, trend, pay);
    if total < 0.0 {
    } else if |bs| == 0 {
      assert a.payments == [];
    } else if bs[0] == PublicEquities && trend.Exn? {
      assert a.payments == [];
      BudgetNonNegative(bs, total);
    } else {
      ProcessBucketsStep(bs, calls, total, description, draw, isValid, trend, pay);
      var b := bs[0];
      var amount := BucketAmount(b, total, Positive(trend));
      var paid := BucketPayment(b, GenerateAccount(draw(calls), isValid), amount, description);
      var rest := ProcessBuckets(bs[1..], calls + 1, total, description, draw, isValid, trend, pay);
      var cap := ShareOf(b, total);
      ProcessBucketsWithinShares(bs[1..], calls + 1, total, description, draw, isValid, trend, pay);
      SumAmountsAppend(paid, rest.payments);
      BucketPaymentWithinAmount(b, GenerateAccount(draw(calls), isValid), amount, description);
      assert SumAmounts(paid) <= cap;
      assert SumAmounts(a.payments) == SumAmounts(paid) + SumAmounts(rest.payments);
      assert Budget(bs, total) == cap + Budget(bs[1..], total);
    }
  }

  /** The dictionary keys of a result, in insertion order. */
  function Keys<R>(results: seq<BucketResult<R>>): seq<string> {
    seq(|results|, i requires 0 <= i < |results| => Name(results[i].bucket))
  }

  /** `BankingUtils.allocate_and_spend_profits(total_amount, description)`. */
  function AllocateAndSpendProfits<R>(total: real, description: string,
                                      draw: nat -> Outcome<string>, isValid: string -> Outcome<bool>,
                                      trend: Outcome<TrendData>, pay: PaymentRequest -> Outcome<R>): (a: Allocation<R>)
    // the dictionary has exactly the three keys, in order
    ensures trend.Ok? ==>
      && a.results.Ok?
      && Keys(a.results.value) == ["Alternative Assets", "Public Equities", "Digital Assets"]
      && (forall i :: 0 <= i < 3 ==> a.results.value[i].bucket == Buckets[i])
    // an entry is None when its generation failed, else the response to its own request
    ensures trend.Ok? ==> forall i :: 0 <= i < 3 ==>
      a.results.value[i].response == EntryResponse(GenerateAccount(draw(i), isValid), Buckets[i], total, description, trend, pay)
    // three generations; one payment per generated account
    ensures trend.Ok? ==> a.generatorCalls == 3 && |a.payments| == Generated(draw, isValid, 0, 3)
    // every payment is on the fixed, checksum-valid routing number with a bucket's description
    ensures forall p :: p in a.payments ==>
      && p.routingNumber == FixedRoutingNumber
      && RoutingValidator.ValidateRoutingNumber(p.routingNumber)
      && exists b :: b in Buckets && p.description == AllocationDescription(description, b)
    // the payments never exceed a non-negative total
    ensures total >= 0.0 ==> SumAmounts(a.payments) <= total
    // a trend-pipeline exception escapes after the first bucket has been processed
    ensures trend.Exn? ==>
      && a.results == Exn(trend.error)
      && a.generatorCalls == 1
      && |a.payments| == Generated(draw, isValid, 0, 1)
  {
    var a := ProcessBuckets(Buckets, 0, total, description, draw, isValid, trend, pay);
    ProcessBucketsPayments(Buckets, 0, total, description, draw, isValid, trend, pay);
    ProcessBucketsWithinShares(Buckets, 0, total, description, draw, isValid, trend, pay);
    BudgetIsTotal(total);
    RoutingValidator.FixedRoutingNumberIsValid();
    if trend.Ok? then
      ProcessBucketsShape(Buckets, 0, total, description, draw, isValid, trend, pay);
      ProcessBucketsEntries(Buckets, 0, total, description, draw, isValid, trend, pay);
      a
    else
      ProcessBucketsStep(Buckets, 0, total, description, draw, isValid, trend, pay);
      assert Buckets[1..][0] == PublicEquities;
      a
  }

  /** One step of the loop, payments only: the head bucket's payment, then the rest's. */
  lemma StepPayments<R>(bs: seq<Bucket>, calls: nat, total: real, description: string,
                        draw: nat -> Outcome<string>, isValid: string -> Outcome<bool>,
                        trend: Outcome<TrendData>, pay: PaymentRequest -> Outcome<R>)
    requires |bs| > 0 && trend.Ok?
    ensures ProcessBuckets(bs, calls, total, description, draw, isValid, trend, pay).payments ==
      BucketPayment(bs[0], GenerateAccount(draw(calls), isValid), BucketAmount(bs[0], total, Positive(trend)), description) +
      ProcessBuckets(bs[1..], calls + 1, total, description, draw, isValid, trend, pay).payments
  {
    ProcessBucketsStep(bs, calls, total, description, draw, isValid, trend, pay);
  }

  /** The payments of a run with the trend available: one request per generated
      account, in bucket order, each for its bucket's amount. */
  lemma AllocationPayments<R>(total: real, description: string,
                              draw: nat -> Outcome<string>, isValid: string -> Outcome<bool>,
                              trend: Outcome<TrendData>, pay: PaymentRequest -> Outcome<R>)
    requires trend.Ok?
    ensures AllocateAndSpendProfits(total, description, draw, isValid, trend, pay).payments ==
      BucketPayment(AlternativeAssets, GenerateAccount(draw(0), isValid), BucketAmount(AlternativeAssets, total, Positive(trend)), description) +
      BucketPayment(PublicEquities, GenerateAccount(draw(1), isValid), BucketAmount(PublicEquities, total, Positive(trend)), description) +
      BucketPayment(DigitalAssets, GenerateAccount(draw(2), isValid), BucketAmount(DigitalAssets, total, Positive(trend)), description)
  {
    var positive := Positive(trend);
    var tail := [PublicEquities, DigitalAssets];
    assert Buckets[1..] == tail && tail[1..] == [DigitalAssets] && [DigitalAssets][1..] == [];
    StepPayments(Buckets, 0, total, description, draw, isValid, trend, pay);
    StepPayments(tail, 1, total, description, draw, isValid, trend, pay);
    StepPayments([DigitalAssets], 2, total, description, draw, isValid, trend, pay);
    ConcatThree(ProcessBuckets(Buckets, 0, total, description, draw, isValid, trend, pay).payments,
                ProcessBuckets(tail, 1, total, description, draw, isValid, trend, pay).payments,
                ProcessBuckets([DigitalAssets], 2, total, description, draw, isValid, trend, pay).payments,
                ProcessBuckets([], 3, total, description, draw, isValid, trend, pay).payments,
                BucketPayment(AlternativeAssets, GenerateAccount(draw(0), isValid), BucketAmount(AlternativeAssets, total, positive), description),
                BucketPayment(PublicEquities, GenerateAccount(draw(1), isValid), BucketAmount(PublicEquities, total, positive), description),
                BucketPayment(DigitalAssets, GenerateAccount(draw(2), isValid), BucketAmount(DigitalAssets, total, positive), description));
  }

  /** Unfolding three steps of a loop whose tail is empty. */
  lemma ConcatThree<T>(x: seq<T>, y: seq<T>, z: seq<T>, w: seq<T>, a: seq<T>, b: seq<T>, c: seq<T>)
    requires x == a + y && y == b + z && z == c + w && w == []
    ensures x == a + b + c
  {
    assert z == c;
  }

  /** Splitting 10000: 6000, 3000 (1500 on a trend that is not positive) and 1000,
      never more than 10000 in all. */
  lemma TenThousandSplit(positive: bool)
    ensures BucketAmount(AlternativeAssets, 10000.0, positive) == 6000.0
    ensures BucketAmount(PublicEquities, 10000.0, positive) == if positive then 3000.0 else 1500.0
    ensures BucketAmount(DigitalAssets, 10000.0, positive) == 1000.0
    ensures Budget(Buckets, 10000.0) == 10000.0
  {
    BudgetIsTotal(10000.0);
  }

  /** Partial failure: when the second generation fails and the gateway answers,
      the first and third buckets are paid, the second is `None`, the generator
      is called three times and the gateway twice. */
  lemma MiddleGenerationFails<R>(total: real, description: string,
                                 draw: nat -> Outcome<string>, isValid: string -> Outcome<bool>,
                                 trend: Outcome<TrendData>, pay: PaymentRequest -> Outcome<R>)
    requires trend.Ok?
    requires GenerateAccount(draw(0), isValid).Some?
    requires GenerateAccount(draw(1), isValid).None?
    requires GenerateAccount(draw(2), isValid).Some?
    requires forall req :: pay(req).Ok?
    ensures var a := AllocateAndSpendProfits(total, description, draw, isValid, trend, pay);
      && a.results.Ok? && |a.results.value| == 3
      && a.results.value[0].response.Some?
      && a.results.value[1].response.None?
      && a.results.value[2].response.Some?
      && a.generatorCalls == 3
      && |a.payments| == 2
  {
    var a := AllocateAndSpendProfits(total, description, draw, isValid, trend, pay);
    assert Generated(draw, isValid, 0, 3) == 2 by {
      assert Generated(draw, isValid, 2, 1) == 1;
      assert Generated(draw, isValid, 1, 2) == 1;
    }
  }
}

=== FILE: blackwell.dfy ===
/** `NVIDIAIntegration._check_blackwell_compatibility` as a pure function of
    whether a GPU is available and of `torch.version.cuda` (a string or `None`):
    the first two dot-separated components are parsed with Python's `int()` and
    compared with 12.4. */
module Blackwell {
  import opened Outcomes
  import opened Ascii

  const RequiredMajor: int := 12
  const RequiredMinor: int := 4

  // ------------------------------------------------------------ str.split

  /** Python's `s.split(sep)` for a one-character separator. */
  function Split(s: string, sep: char): (parts: seq<string>)
    ensures |parts| >= 1
    ensures forall i :: 0 <= i < |parts| ==> sep !in parts[i]
    decreases |s|
  {
    if |s| == 0 then [""]
    else
      var rest := Split(s[1..], sep);
      if s[0] == sep then [""] + rest else [[s[0]] + rest[0]] + rest[1..]
  }

  /** Python's `sep.join(parts)`. */
  function Join(parts: seq<string>, sep: char): string
    requires |parts| >= 1
    decreases |parts|
  {
    if |parts| == 1 then parts[0] else parts[0] + [sep] + Join(parts[1..], sep)
  }

  /** Joining the parts of a split gives the original string back. */
  lemma {:induction false} JoinSplit(s: string, sep: char)
    ensures Join(Split(s, sep), sep) == s
    decreases |s|
  {
    if |s| > 0 {
      var rest := Split(s[1..], sep);
      JoinSplit(s[1..], sep);
      if s[0] == sep {
        assert Split(s, sep)[1..] == rest;
        assert s == [sep] + s[1..];
      } else if |rest| == 1 {
        assert s == [s[0]] + s[1..];
      } else {
        assert Split(s, sep)[1..] == rest[1..];
        assert s == [s[0]] + s[1..];
      }
    }
  }

  /** A string without the separator splits into itself alone. */
  lemma {:induction false} SplitWithoutSeparator(a: string, sep: char)
    requires sep !in a
    ensures Split(a, sep) == [a]
    decreases |a|
  {
    if |a| > 0 {
      assert sep !in a[1..];
      SplitWithoutSeparator(a[1..], sep);
      assert [a[0]] + a[1..] == a;
    }
  }

  /** A leading separator-free piece followed by the separator is the first part. */
  lemma {:induction false} SplitAfterPiece(a: string, sep: char, rest: string)
    requires sep !in a
    ensures Split(a + [sep] + rest, sep) == [a] + Split(rest, sep)
    decreases |a|
  {
    if |a| == 0 {
      assert a + [sep] + rest == [sep] + rest;
      assert ([sep] + rest)[1..] == rest;
    } else {
      assert (a + [sep] + rest)[1..] == a[1..] + [sep] + rest;
      assert sep !in a[1..];
      SplitAfterPiece(a[1..], sep, rest);
      assert [a[0]] + a[1..] == a;
    }
  }

  // ------------------------------------------------------------------ int()

  /** The whitespace Python's `int()` strips, restricted to ASCII. */
  predicate IsSpace(c: char) {
    c == ' ' || 9 <= c as int <= 13 || 28 <= c as int <= 31
  }

  function StripLeft(s: string): (r: string)
    ensures |r| <= |s|
    ensures |r| > 0 ==> !IsSpace(r[0])
    decreases |s|
  {
    if |s| > 0 && IsSpace(s[0]) then StripLeft(s[1..]) else s
  }

  function StripRight(s: string): (r: string)
    ensures |r| <= |s|
    ensures |r| > 0 ==> !IsSpace(r[|r| - 1])
    decreases |s|
  {
    if |s| > 0 && IsSpace(s[|s| - 1]) then StripRight(s[..|s| - 1]) else s
  }

  /** Python's `s.strip()` over ASCII whitespace. */
  function Strip(s: string): string {
    StripRight(StripLeft(s))
  }

  /** Decimal digits with single underscores between digits, as `int()` accepts them. */
  function ParseDigits(s: string): (n: Option<nat>)
    ensures AllDigits(s) && |s| > 0 ==> n.Some?
    decreases |s|
  {
    if |s| == 0 || !IsDigit(s[|s| - 1]) then None
    else if |s| == 1 then Some(DigitValue(s[0]))
    else
      var init := s[..|s| - 1];
      var head := if init[|init| - 1] == '_' then init[..|init| - 1] else init;
      assert AllDigits(s) ==> AllDigits(head);
      match ParseDigits(head)
      case None => None
      case Some(v) => Some(v * 10 + DigitValue(s[|s| - 1]))
  }

  /** The default limit on the digits of decimal text `int()` converts
      (`sys.get_int_max_str_digits()`) in CPython 3.11 and later, and in the
      3.7.14, 3.8.14, 3.9.14 and 3.10.7 releases. Longer text raises ValueError. */
  const MaxStrDigits: nat := 4300

  /** The text after the sign: grouped digits, at most `MaxStrDigits` of them
      once the underscores are left out. */
  function ReadBody(body: string): Option<nat> {
    match ParseDigits(body)
    case None => None
    case Some(n) => if |WithoutUnderscores(body)| > MaxStrDigits then None else Some(n)
  }

  /** Python's `int(s)` for ASCII text: optional surrounding whitespace, an
      optional sign, then digits; `None` where `int()` raises ValueError. */
  function ParseInt(s: string): Option<int> {
    var t := Strip(s);
    if |t| > 0 && (t[0] == '+' || t[0] == '-') then
      match ReadBody(t[1..])
      case None => None
      case Some(n) =>
        var v: int := if t[0] == '-' then 0 - n as int else n;
        Some(v)
    else
      match ReadBody(t)
      case None => None
      case Some(n) => Some(n)
  }

  /** The value of a string of plain decimal digits, read most significant first. */
  function DecimalValue(s: string): nat
    requires AllDigits(s)
    decreases |s|
  {
    if |s| == 0 then 0 else DecimalValue(s[..|s| - 1]) * 10 + DigitValue(s[|s| - 1])
  }

  /** On plain decimal digits, `int()` yields their decimal value. */
  lemma {:induction false} ParseDigitsDecimal(s: string)
    requires |s| > 0 && AllDigits(s)
    ensures ParseDigits(s) == Some(DecimalValue(s))
    decreases |s|
  {
    if |s| > 1 {
      var init := s[..|s| - 1];
      assert init[|init| - 1] != '_' by { assert IsDigit(s[|s| - 2]); }
      ParseDigitsDecimal(init);
    } else {
      assert s[..0] == "";
    }
  }

  /** On plain decimal digits, `int()` yields their decimal value, unless there
      are more than `MaxStrDigits` of them. */
  lemma ParseIntDecimal(s: string)
    requires |s| > 0 && AllDigits(s)
    ensures |s| <= MaxStrDigits ==> ParseInt(s) == Some(DecimalValue(s))
    ensures |s| > MaxStrDigits ==> ParseInt(s) == None
  {
    assert !IsSpace(s[0]) && !IsSpace(s[|s| - 1]);
    assert StripLeft(s) == s;
    assert StripRight(s) == s;
    assert s[0] != '+' && s[0] != '-' by { assert IsDigit(s[0]); }
    ParseDigitsDecimal(s);
    WithoutUnderscoresOfDigits(s);
    assert ReadBody(s) == if |s| > MaxStrDigits then None else Some(DecimalValue(s));
  }

  /** The characters of `s` with its underscores left out. */
  function WithoutUnderscores(s: string): string
    decreases |s|
  {
    if |s| == 0 then ""
    else if s[|s| - 1] == '_' then WithoutUnderscores(s[..|s| - 1])
    else WithoutUnderscores(s[..|s| - 1]) + [s[|s| - 1]]
  }

  /** Digit groups separated by single underscores: the text `int()` accepts
      after the sign. No leading, trailing or doubled underscore. */
  predicate Grouped(s: string) {
    && |s| > 0 && IsDigit(s[0]) && IsDigit(s[|s| - 1])
    && (forall i :: 0 <= i < |s| ==> IsDigit(s[i]) || s[i] == '_')
    && (forall i :: 0 <= i < |s| - 1 && s[i] == '_' ==> s[i + 1] != '_')
  }

  /** Plain digits have no underscore to leave out. */
  lemma {:induction false} WithoutUnderscoresOfDigits(s: string)
    requires AllDigits(s)
    ensures WithoutUnderscores(s) == s
    decreases |s|
  {
    if |s| > 0 {
      var init := s[..|s| - 1];
      WithoutUnderscoresOfDigits(init);
      assert init + [s[|s| - 1]] == s;
    }
  }

  lemma DecimalValueAppend(x: string, c: char)
    requires AllDigits(x) && IsDigit(c)
    ensures AllDigits(x + [c]) && DecimalValue(x + [c]) == DecimalValue(x) * 10 + DigitValue(c)
  {
    assert (x + [c])[..|x|] == x;
  }

  /** Dropping the last digit of a grouped string, and the underscore before it
      if there is one, keeps it grouped, and conversely. */
  lemma GroupedStep(s: string, head: string)
    requires |s| >= 2 && IsDigit(s[|s| - 1])
    requires head == if s[|s| - 2] == '_' then s[..|s| - 2] else s[..|s| - 1]
    ensures Grouped(s) <==> Grouped(head)
  {
    if s[|s| - 2] == '_' {
      if Grouped(s) {
        assert |s| > 2 by { assert IsDigit(s[0]); }
        var j := |s| - 3;
        assert s[j] != '_' by { assert s[j + 1] == '_'; }
        forall i | 0 <= i < |head| ensures IsDigit(head[i]) || head[i] == '_' {
          assert head[i] == s[i];
        }
        forall i | 0 <= i < |head| - 1 && head[i] == '_' ensures head[i + 1] != '_' {
          assert head[i] == s[i] && head[i + 1] == s[i + 1];
        }
      }
      if Grouped(head) {
        assert s == head + ['_', s[|s| - 1]];
        forall i | 0 <= i < |s| ensures IsDigit(s[i]) || s[i] == '_' {
          if i < |head| { assert s[i] == head[i]; }
        }
        forall i | 0 <= i < |s| - 1 && s[i] == '_' ensures s[i + 1] != '_' {
          if i < |head| - 1 {
            assert s[i] == head[i] && s[i + 1] == head[i + 1];
          } else if i == |head| - 1 {
            assert false;
          }
        }
      }
    } else {
      if Grouped(s) {
        assert IsDigit(s[|s| - 2]);
        forall i | 0 <= i < |head| ensures IsDigit(head[i]) || head[i] == '_' {
          assert head[i] == s[i];
        }
        forall i | 0 <= i < |head| - 1 && head[i] == '_' ensures head[i + 1] != '_' {
          assert head[i] == s[i] && head[i + 1] == s[i + 1];
        }
      }
      if Grouped(head) {
        assert s == head + [s[|s| - 1]];
        forall i | 0 <= i < |s| ensures IsDigit(s[i]) || s[i] == '_' {
          if i < |head| { assert s[i] == head[i]; }
        }
        forall i | 0 <= i < |s| - 1 && s[i] == '_' ensures s[i + 1] != '_' {
          assert s[i] == head[i];
          if i < |head| - 1 { assert s[i + 1] == head[i + 1]; }
        }
      }
    }
  }

  /** `ParseDigits` accepts exactly the grouped strings, and reads their digits,
      underscores left out, in decimal. */
  lemma {:induction false} ParseDigitsGrouped(s: string)
    ensures ParseDigits(s).Some? <==> Grouped(s)
    ensures Grouped(s) ==>
      && AllDigits(WithoutUnderscores(s))
      && ParseDigits(s) == Some(DecimalValue(WithoutUnderscores(s)))
    decreases |s|
  {
    if |s| == 0 || !IsDigit(s[|s| - 1]) {
    } else if |s| == 1 {
      assert s[..0] == "";
      assert WithoutUnderscores(s) == s;
    } else {
      var init := s[..|s| - 1];
      var head := if init[|init| - 1] == '_' then init[..|init| - 1] else init;
      assert head == if s[|s| - 2] == '_' then s[..|s| - 2] else s[..|s| - 1];
      ParseDigitsGrouped(head);
      GroupedStep(s, head);
      if Grouped(s) {
        assert WithoutUnderscores(s) == WithoutUnderscores(head) + [s[|s| - 1]];
        DecimalValueAppend(WithoutUnderscores(head), s[|s| - 1]);
      }
    }
  }

  /** `int(s)` succeeds exactly when `s`, stripped, is an optional sign followed
      by grouped digits, at most `MaxStrDigits` of them; the value is those
      digits in decimal, negated after '-'. */
  lemma ParseIntGrammar(s: string)
    ensures var t := Strip(s);
      var signed := |t| > 0 && (t[0] == '+' || t[0] == '-');
      var body := if signed then t[1..] else t;
      && (ParseInt(s).Some? <==> Grouped(body) && |WithoutUnderscores(body)| <= MaxStrDigits)
      && (Grouped(body) && |WithoutUnderscores(body)| <= MaxStrDigits ==>
            && AllDigits(WithoutUnderscores(body))
            && ParseInt(s) == Some(if signed && t[0] == '-' then 0 - DecimalValue(WithoutUnderscores(body))
                                   else DecimalValue(WithoutUnderscores(body))))
  {
    var t := Strip(s);
    var signed := |t| > 0 && (t[0] == '+' || t[0] == '-');
    ParseDigitsGrouped(if signed then t[1..] else t);
  }

  lemma {:induction false} StripLeftSpaces(pre: string, x: string)
    requires forall i :: 0 <= i < |pre| ==> IsSpace(pre[i])
    ensures StripLeft(pre + x) == StripLeft(x)
    decreases |pre|
  {
    if |pre| > 0 {
      assert (pre + x)[1..] == pre[1..] + x;
      StripLeftSpaces(pre[1..], x);
    } else {
      assert pre + x == x;
    }
  }

  lemma {:induction false} StripRightSpaces(x: string, post: string)
    requires forall i :: 0 <= i < |post| ==> IsSpace(post[i])
    ensures StripRight(x + post) == StripRight(x)
    decreases |post|
  {
    if |post| > 0 {
      assert (x + post)[..|x + post| - 1] == x + post[..|post| - 1];
      StripRightSpaces(x, post[..|post| - 1]);
    } else {
      assert x + post == x;
    }
  }

  /** `int()` ignores whitespace around the number. */
  lemma ParseIntIgnoresSurroundingSpace(pre: string, s: string, post: string)
    requires forall i :: 0 <= i < |pre| ==> IsSpace(pre[i])
    requires forall i :: 0 <= i < |post| ==> IsSpace(post[i])
    requires |s| > 0 && !IsSpace(s[0]) && !IsSpace(s[|s| - 1])
    ensures ParseInt(pre + s + post) == ParseInt(s)
  {
    StripLeftSpaces(pre, s + post);
    assert pre + s + post == pre + (s + post);
    assert StripLeft(s + post) == s + post;
    StripRightSpaces(s, post);
    assert StripLeft(s) == s && StripRight(s) == s;
  }

  /** Surrounding whitespace, a sign and single underscores are accepted; a bare
      sign, a leading underscore and a doubled underscore raise. */
  lemma IntExamples()
    ensures ParseInt(" 12 ") == Some(12)
    ensures ParseInt("-1") == Some(-1)
    ensures ParseInt("1_2") == Some(12)
    ensures ParseInt("1__2") == None
    ensures ParseInt("_1") == None
    ensures ParseInt("+") == None
  {
    SpacedExample();
    SignedExample();
    UnderscoreExample();
    RejectedExamples();
  }

  lemma SpacedExample()
    ensures ParseInt(" 12 ") == Some(12)
  {
    assert Strip(" 12 ") == "12";
    Digits12();
  }

  lemma SignedExample()
    ensures ParseInt("-1") == Some(-1)
  {
    assert Strip("-1") == "-1";
    assert ("-1")[1..] == "1";
    DigitsOne("1");
    assert ReadBody("1") == Some(1);
  }

  lemma UnderscoreExample()
    ensures ParseInt("1_2") == Some(12)
  {
    assert Strip("1_2") == "1_2";
    assert ("1_2")[..2][..1] == "1";
    assert WithoutUnderscores("1_2") == "12" by {
      assert ("1_2")[..2] == "1_" && ("1_")[..1] == "1" && ("1")[..0] == "";
    }
  }

  lemma RejectedExamples()
    ensures ParseInt("1__2") == None
    ensures ParseInt("_1") == None
    ensures ParseInt("+") == None
  {
    assert Strip("1__2") == "1__2";
    assert Strip("_1") == "_1";
    assert Strip("+") == "+";
    assert ("1__2")[..3][..2] == "1_";
    assert ("_1")[..1] == "_";
    assert ("+")[1..] == "";
  }

  // ------------------------------------------------------------ the check

  /** `_check_blackwell_compatibility()`: `Exn` where `int()` or the unpacking of
      `major, minor` raises ValueError. */
  function CheckBlackwellCompatibility(gpuAvailable: bool, cudaVersion: Option<string>): (r: Outcome<bool>)
    ensures !gpuAvailable ==> r == Ok(false)
    ensures cudaVersion.None? || cudaVersion == Some("") ==> r == Ok(false)
    ensures gpuAvailable && cudaVersion.Some? && cudaVersion.value != "" ==>
      var parts := Split(cudaVersion.value, '.');
      && (r.Ok? <==> |parts| >= 2 && ParseInt(parts[0]).Some? && ParseInt(parts[1]).Some?)
      && (r.Ok? ==> r.value == Compatible(ParseInt(parts[0]).value, ParseInt(parts[1]).value))
  {
    if !gpuAvailable then Ok(false)
    else if cudaVersion.None? || cudaVersion.value == "" then Ok(false)
    else
      var parts := Split(cudaVersion.value, '.');
      match ParseInt(parts[0])
      case None => Exn("ValueError: invalid literal for int()")
      case Some(major) =>
        if |parts| < 2 then Exn("ValueError: not enough values to unpack")
        else
          match ParseInt(parts[1])
          case None => Exn("ValueError: invalid literal for int()")
          case Some(minor) => Ok(major > RequiredMajor || (major == RequiredMajor && minor >= RequiredMinor))
  }

  /** Version `major.minor` is at least 12.4 in lexicographic order. */
  predicate Compatible(major: int, minor: int) {
    major > RequiredMajor || (major == RequiredMajor && minor >= RequiredMinor)
  }

  /** `"<a>.<b>"` with numeric components is compatible iff (a, b) is at least (12, 4). */
  lemma TwoComponentVersion(a: string, b: string)
    requires '.' !in a && '.' !in b
    requires ParseInt(a).Some? && ParseInt(b).Some?
    ensures a + "." + b != ""
    ensures CheckBlackwellCompatibility(true, Some(a + "." + b)) == Ok(Compatible(ParseInt(a).value, ParseInt(b).value))
  {
    SplitAfterPiece(a, '.', b);
    SplitWithoutSeparator(b, '.');
    assert a + "." + b == a + ['.'] + b;
  }

  /** Components after the second are never read: `"<a>.<b>.<rest>"` behaves like `"<a>.<b>"`. */
  lemma ExtraComponentsIgnored(a: string, b: string, rest: string)
    requires '.' !in a && '.' !in b
    ensures CheckBlackwellCompatibility(true, Some(a + "." + b + "." + rest)) ==
            CheckBlackwellCompatibility(true, Some(a + "." + b))
  {
    SplitAfterPiece(a, '.', b + "." + rest);
    SplitAfterPiece(b, '.', rest);
    SplitAfterPiece(a, '.', b);
    SplitWithoutSeparator(b, '.');
    assert a + "." + b + "." + rest == a + ['.'] + (b + ['.'] + rest);
    assert a + "." + b == a + ['.'] + b;
  }

  /** A version without a dot raises (there is no minor component to unpack). */
  lemma SingleComponentRaises(a: string)
    requires '.' !in a && a != ""
    ensures CheckBlackwellCompatibility(true, Some(a)).Exn?
  {
    SplitWithoutSeparator(a, '.');
  }

  /** A non-numeric major component raises. */
  lemma NonNumericMajorRaises(a: string, rest: string)
    requires '.' !in a && ParseInt(a).None?
    ensures CheckBlackwellCompatibility(true, Some(a + "." + rest)).Exn?
  {
    SplitAfterPiece(a, '.', rest);
    assert a + "." + rest == a + ['.'] + rest;
  }

  /** A major component of more than `MaxStrDigits` plain digits raises. */
  lemma OverlongMajorRaises(a: string, rest: string)
    requires |a| > MaxStrDigits && AllDigits(a)
    ensures CheckBlackwellCompatibility(true, Some(a + "." + rest)).Exn?
  {
    ParseIntDecimal(a);
    NonNumericMajorRaises(a, rest);
  }

  /** CUDA 12.4 qualifies, and so does 12.4.1. */
  lemma Version12Point4()
    ensures CheckBlackwellCompatibility(true, Some("12.4")) == Ok(true)
    ensures CheckBlackwellCompatibility(true, Some("12.4.1")) == Ok(true)
  {
    Digits12();
    DigitsOne("4");
    TwoComponentVersion("12", "4");
    assert "12" + "." + "4" == "12.4";
    ExtraComponentsIgnored("12", "4", "1");
    assert "12" + "." + "4" + "." + "1" == "12.4.1";
  }

  /** CUDA 12.3 does not qualify. */
  lemma Version12Point3()
    ensures CheckBlackwellCompatibility(true, Some("12.3")) == Ok(false)
  {
    Digits12();
    DigitsOne("3");
    TwoComponentVersion("12", "3");
    assert "12" + "." + "3" == "12.3";
  }

  /** A later major version qualifies whatever its minor. */
  lemma Version13Point0()
    ensures CheckBlackwellCompatibility(true, Some("13.0")) == Ok(true)
  {
    Digits12();
    DigitsOne("0");
    TwoComponentVersion("13", "0");
    assert "13" + "." + "0" == "13.0";
  }

  lemma Digits12()
    ensures ParseInt("12") == Some(12) && ParseInt("13") == Some(13)
  {
    ParseIntDecimal("12");
    ParseIntDecimal("13");
    assert "12"[..1] == "1";
    assert "13"[..1] == "1";
  }

  lemma DigitsOne(d: string)
    requires |d| == 1 && IsDigit(d[0])
    ensures ParseInt(d) == Some(DigitValue(d[0]))
  {
    ParseIntDecimal(d);
    assert d[..0] == "";
  }
}

=== FILE: generator_wiring.dfy ===
/** How `BankingUtils.generate_account` reaches the real generator of
    `generate_account_number.py`. The wrapper passes its `length` argument on
    (banking_utils.py line 50), but the generator takes no parameter, so the call
    raises TypeError, which the wrapper turns into `None`. The corrected wiring
    calls the generator without an argument. */
module GeneratorWiring {
  import opened Outcomes
  import opened Ascii
  import opened AccountGenerator
  import opened AchPayments
  import opened BankingUtils

  /** Calling `generate_account_number(*args)` with the draws its nine
      `random.randint(0, 9)` calls return: any positional argument is a TypeError. */
  function CallGenerator(args: seq<int>, draws: seq<int>): (o: Outcome<string>)
    requires AreDraws(draws)
    ensures |args| == 0 ==> o.Ok? && |o.value| == AccountLength && IsDigitString(o.value)
    ensures |args| > 0 ==> o.Exn?
  {
    if |args| == 0 then Ok(AccountNumber(draws))
    else Exn("TypeError: generate_account_number() takes 0 positional arguments")
  }

  /** `generate_account(length)` as written: the length is passed to the generator. */
  function GenerateAccountAsWritten(length: int, draws: seq<int>, isValid: string -> Outcome<bool>): (account: Option<string>)
    requires AreDraws(draws)
    ensures account == None
  {
    GenerateAccount(CallGenerator([length], draws), isValid)
  }

  /** `generate_account()` with the generator called as it is declared, without
      an argument. This corrects the default call only, the one both payment
      paths make; a generator that honours a requested length is not modelled. */
  function GenerateAccountCorrected(draws: seq<int>, isValid: string -> Outcome<bool>): (account: Option<string>)
    requires AreDraws(draws)
    ensures account.Some? <==> isValid(AccountNumber(draws)) == Ok(true)
    ensures account.Some? ==> account.value == AccountNumber(draws) && |account.value| == AccountLength && IsDigitString(account.value)
  {
    GenerateAccount(CallGenerator([], draws), isValid)
  }

  /** As written, no length yields an account, even with a validator that accepts everything. */
  lemma AsWrittenNeverGenerates(length: int, draws: seq<int>)
    requires AreDraws(draws)
    ensures GenerateAccountAsWritten(length, draws, (s: string) => Ok(true)) == None
  {
  }

  /** As written, `spend_profits_for_oscar` without an account never pays. */
  lemma AsWrittenSpendNeverPays<R>(amount: real, description: string, draws: seq<int>,
                                   isValid: string -> Outcome<bool>, pay: PaymentRequest -> Outcome<R>)
    requires AreDraws(draws)
    ensures var s := SpendProfitsForOscar(amount, description, None, CallGenerator([9], draws), isValid, pay);
      s.response == None && s.payments == []
  {
  }

  /** With the corrected call and a validator that accepts, every generation
      yields the drawn nine-digit number, so the spending path pays it. */
  lemma CorrectedSpendPays<R>(amount: real, description: string, draws: seq<int>,
                              isValid: string -> Outcome<bool>, pay: PaymentRequest -> Outcome<R>)
    requires AreDraws(draws)
    requires isValid(AccountNumber(draws)) == Ok(true)
    ensures GenerateAccountCorrected(draws, isValid) == Some(AccountNumber(draws))
    ensures var s := SpendProfitsForOscar(amount, description, None, CallGenerator([], draws), isValid, pay);
      s.payments == [PaymentRequest(AccountNumber(draws), FixedRoutingNumber, amount, description)]
  {
  }

  /** The generator outcome of call `i` when call `i` draws `rng(i)` and passes `args`. */
  function Calls(args: seq<int>, rng: nat -> Draws): nat -> Outcome<string> {
    (i: nat) => CallGenerator(args, rng(i))
  }

  /** As written, the allocation pays nothing: all three buckets are `None`. */
  lemma AsWrittenAllocationPaysNothing<R>(total: real, description: string, rng: nat -> Draws,
                                          isValid: string -> Outcome<bool>, data: TrendData,
                                          pay: PaymentRequest -> Outcome<R>)
    ensures var a := AllocateAndSpendProfits(total, description, Calls([9], rng), isValid, Ok(data), pay);
      && a.payments == []
      && a.results.Ok?
      && forall i :: 0 <= i < |a.results.value| ==> a.results.value[i].response == None
  {
    var draw := Calls([9], rng);
    forall i: nat
      ensures GenerateAccount(draw(i), isValid).None?
    {
      assert draw(i) == CallGenerator([9], rng(i));
    }
    AllocationPayments(total, description, draw, isValid, Ok(data), pay);
  }

  /** Corrected, with a validator that accepts and a gateway that answers, every
      bucket is paid: three payments, one per bucket, none `None`. */
  lemma CorrectedAllocationPaysEveryBucket<R>(total: real, description: string, rng: nat -> Draws,
                                              data: TrendData, pay: PaymentRequest -> Outcome<R>)
    requires forall req :: pay(req).Ok?
    ensures var a := AllocateAndSpendProfits(total, description, Calls([], rng), (s: string) => Ok(true), Ok(data), pay);
      && |a.payments| == 3
      && a.results.Ok?
      && forall i :: 0 <= i < |a.results.value| ==> a.results.value[i].response.Some?
  {
    var isValid := (s: string) => Ok(true);
    var draw := Calls([], rng);
    forall i: nat
      ensures GenerateAccount(draw(i), isValid).Some?
    {
      assert draw(i) == CallGenerator([], rng(i));
    }
    AllocationPayments(total, description, draw, isValid, Ok(data), pay);
  }
}

=== FILE: outcomes.dfy ===
/** Result conventions shared by the banking layer.
    - Option<T>: Python's "a value or None".
    - Outcome<T>: what a call into a collaborator did: it returned a value, or it raised.
 */
module Outcomes {

  /** A value or Python's `None`. */
  datatype Option<+T> = None | Some(value: T)

  /** The result of calling code that may raise: `Ok` carries the returned value,
      `Exn` the raised exception's message. */
  datatype Outcome<+T> = Ok(value: T) | Exn(error: string)

  /** `try: return call() except Exception: return None` */
  function Catch<T>(o: Outcome<T>): Option<T>
  {
    match o
    case Ok(v) => Some(v)
    case Exn(_) => None
  }
}

=== FILE: routing_resolver.dfy ===
/** `get_routing_number.py`: bank-name to routing-number resolution through a
    TTL-bounded cache and a fixed built-in table.

    The cache file becomes an abstract `Store`. The module reads the clock
    twice, and each reading is a parameter (seconds since the epoch, as a
    real): `now` is the `time.time()` that `load_cache` filters with, and
    `stampTime` the later `time.time()` whose `int()` stamps a new entry. */
module RoutingResolver {
  import opened Outcomes
  import opened Ascii

  /** CACHE_TTL: an entry is usable while it is younger than 24 hours. */
  const CacheTtl: int := 86400

  /** The `routing_number` member of a stored entry: a JSON string, some other
      JSON value, or missing. */
  datatype Field = Text(s: string) | NonText | Missing

  /** An entry of the loaded cache. */
  datatype Entry = Entry(routingNumber: Field, timestamp: real)

  /** The in-memory cache: lower-cased bank name to entry. */
  type Cache = map<string, Entry>

  /** An entry as the file holds it. `timestamp` is what `float(v["timestamp"])`
      yields, `None` when that raises (no such member, not a number, or `v` is
      not an object). */
  datatype RawEntry = RawEntry(routingNumber: Field, timestamp: Option<real>)

  /** The cache file: absent, unreadable or not a JSON object, or an object. */
  datatype Store = NoFile | Unreadable | File(entries: map<string, RawEntry>)

  /** `int(x)`: truncation toward zero. */
  function Truncate(x: real): (n: int)
    ensures x >= 0.0 ==> n as real <= x < n as real + 1.0
    ensures x < 0.0 ==> n as real - 1.0 < x <= n as real
  {
    if x >= 0.0 then x.Floor else -((-x).Floor)
  }

  /** The filter `now - float(v["timestamp"]) < CACHE_TTL`. */
  predicate Fresh(timestamp: real, now: real) {
    now - timestamp < CacheTtl as real
  }

  predicate AllStamped(entries: map<string, RawEntry>) {
    forall k :: k in entries ==> entries[k].timestamp.Some?
  }

  /** `load_cache()` at time `now`. */
  function LoadCache(store: Store, now: real): (c: Cache)
    ensures !store.File? ==> c == map[]
    ensures store.File? && !AllStamped(store.entries) ==> c == map[]
    ensures store.File? && AllStamped(store.entries) ==>
      && (forall k :: k in c ==>
            && k in store.entries && Fresh(store.entries[k].timestamp.value, now)
            && c[k] == Entry(store.entries[k].routingNumber, store.entries[k].timestamp.value))
      && (forall k :: k in store.entries && Fresh(store.entries[k].timestamp.value, now) ==>
            k in c && c[k] == Entry(store.entries[k].routingNumber, store.entries[k].timestamp.value))
  {
    if store.File? && AllStamped(store.entries) then
      map k | k in store.entries && Fresh(store.entries[k].timestamp.value, now)
        :: Entry(store.entries[k].routingNumber, store.entries[k].timestamp.value)
    else
      map[]
  }

  /** `save_cache(c)`: the file holds exactly the cache. */
  function SaveCache(c: Cache): (store: Store)
    ensures store.File? && store.entries.Keys == c.Keys && AllStamped(store.entries)
  {
    File(map k | k in c :: RawEntry(c[k].routingNumber, Some(c[k].timestamp)))
  }

  /** What a cache holds once loaded at `now`: its fresh entries. */
  function Unexpired(c: Cache, now: real): Cache {
    map k | k in c && Fresh(c[k].timestamp, now) :: c[k]
  }

  /** Saving and loading again loses exactly the entries that have expired by then. */
  lemma SaveLoadRoundTrip(c: Cache, now: real)
    ensures LoadCache(SaveCache(c), now) == Unexpired(c, now)
    ensures (forall k :: k in c ==> Fresh(c[k].timestamp, now)) ==> LoadCache(SaveCache(c), now) == c
  {
    var l := LoadCache(SaveCache(c), now);
    assert l.Keys == Unexpired(c, now).Keys;
  }

  lemma SaveLoadRoundTripAll(c: Cache)
    ensures forall now :: LoadCache(SaveCache(c), now) == Unexpired(c, now)
  {
    forall now ensures LoadCache(SaveCache(c), now) == Unexpired(c, now) {
      SaveLoadRoundTrip(c, now);
    }
  }

  /** The built-in table consulted on a cache miss (`None` values included). */
  const BuiltInTable: map<string, Option<string>> := map[
    "capetain cetriva" := Some("021000021"),
    "test bank" := Some("123456789"),
    "new bank" := Some("987654321"),
    "fail bank" := None,
    "bad json bank" := None
  ]

  predicate Known(key: string) {
    key in BuiltInTable && BuiltInTable[key].Some?
  }

  /** One call of `get_routing_number`: what it returns (or raises) and the
      cache it saves, if it saves one. */
  datatype Resolution = Resolution(result: Outcome<Option<string>>, saved: Option<Cache>)

  /** `get_routing_number(bankName)` against `store`, loading at time `now` and
      stamping a newly resolved entry with the clock reading `stampTime`. */
  function GetRoutingNumber(store: Store, bankName: string, now: real, stampTime: real): (r: Resolution)
    // cache hit: answered from the cache, nothing saved
    ensures var c, key := LoadCache(store, now), Lower(bankName);
      key in c ==>
        && r.saved == None
        && (c[key].routingNumber.Text? ==> r.result == Ok(Some(c[key].routingNumber.s)))
        && (c[key].routingNumber.NonText? ==> r.result == Ok(None))
        && (c[key].routingNumber.Missing? ==> r.result.Exn?)
    // miss on a name the table maps to a number: one entry added, the rest kept, saved
    ensures var c, key := LoadCache(store, now), Lower(bankName);
      key !in c && Known(key) ==>
        && r.result == Ok(Some(BuiltInTable[key].value))
        && r.saved.Some?
        && r.saved.value.Keys == c.Keys + {key}
        && r.saved.value[key] == Entry(Text(BuiltInTable[key].value), Truncate(stampTime) as real)
        && (forall k :: k in c ==> r.saved.value[k] == c[k])
    // miss on any other name: None, nothing saved
    ensures var c, key := LoadCache(store, now), Lower(bankName);
      key !in c && !Known(key) ==> r == Resolution(Ok(None), None)
  {
    var cache := LoadCache(store, now);
    var key := Lower(bankName);
    if key in cache then
      match cache[key].routingNumber
      case Text(s) => Resolution(Ok(Some(s)), None)
      case NonText => Resolution(Ok(None), None)
      case Missing => Resolution(Exn("KeyError: 'routing_number'"), None)
    else if Known(key) then
      var routingNumber := BuiltInTable[key].value;
      Resolution(Ok(Some(routingNumber)), Some(cache[key := Entry(Text(routingNumber), Truncate(stampTime) as real)]))
    else
      Resolution(Ok(None), None)
  }

  /** The store after a call: rewritten when the call saved and the write
      succeeded (`saveOk`); a failed write is swallowed and leaves it as it was. */
  function Persist(store: Store, r: Resolution, saveOk: bool): (after: Store)
    ensures !(saveOk && r.saved.Some?) ==> after == store
    ensures saveOk && r.saved.Some? ==>
      && after.File? && after.entries.Keys == r.saved.value.Keys
      && forall now :: LoadCache(after, now) == Unexpired(r.saved.value, now)
  {
    if r.saved.Some? && saveOk then
      SaveLoadRoundTripAll(r.saved.value);
      SaveCache(r.saved.value)
    else
      store
  }

  /** Names that differ only in letter case resolve identically. */
  lemma CaseInsensitive(store: Store, a: string, b: string, now: real, stampTime: real)
    requires Lower(a) == Lower(b)
    ensures GetRoutingNumber(store, a, now, stampTime) == GetRoutingNumber(store, b, now, stampTime)
  {
  }

  /** A returned number comes from the cache file or from the built-in table. */
  lemma ResultFromCacheOrTable(store: Store, bankName: string, now: real, stampTime: real)
    ensures var r, key := GetRoutingNumber(store, bankName, now, stampTime), Lower(bankName);
      r.result.Ok? && r.result.value.Some? ==>
        || (store.File? && key in store.entries && store.entries[key].routingNumber == Text(r.result.value.value))
        || (key in BuiltInTable && BuiltInTable[key] == r.result.value)
  {
  }

  /** Resolution is idempotent under caching: a miss that resolves and saves,
      followed within the TTL by a second lookup of the same name, makes the
      second a cache hit with the same number and no save. */
  lemma SecondLookupIsCacheHit(store: Store, a: string, b: string,
                                                  now1: real, stamp1: real, now2: real, stamp2: real)
    requires Lower(a) == Lower(b)
    requires Lower(a) !in LoadCache(store, now1) && Known(Lower(a))
    requires Fresh(Truncate(stamp1) as real, now2)
    ensures var r1 := GetRoutingNumber(store, a, now1, stamp1);
      var r2 := GetRoutingNumber(Persist(store, r1, true), b, now2, stamp2);
      r1.result.Ok? && r2.result == r1.result && r2.saved == None
  {
    var key := Lower(a);
    var r1 := GetRoutingNumber(store, a, now1, stamp1);
    var after := Persist(store, r1, true);
    assert after == SaveCache(r1.saved.value);
    var c2 := LoadCache(after, now2);
    assert key in after.entries;
    assert after.entries[key] == RawEntry(Text(BuiltInTable[key].value), Some(Truncate(stamp1) as real));
    assert key in c2;
  }

  /** An entry exactly CACHE_TTL seconds old is already expired: the table is
      consulted again and the entry is re-stamped with the second clock reading. */
  lemma ExpiredEntryRefreshed(entries: map<string, RawEntry>, bankName: string, now: real, stampTime: real)
    requires AllStamped(entries)
    requires Lower(bankName) in entries && Known(Lower(bankName))
    requires !Fresh(entries[Lower(bankName)].timestamp.value, now)
    ensures var r := GetRoutingNumber(File(entries), bankName, now, stampTime);
      && r.result == Ok(BuiltInTable[Lower(bankName)])
      && r.saved.Some?
      && r.saved.value[Lower(bankName)].timestamp == Truncate(stampTime) as real
  {
    assert Lower(bankName) !in LoadCache(File(entries), now);
  }

  /** The TTL bound is strict: an entry stamped exactly 86400 s before `now` is
      dropped on load, one stamped a second later is kept. */
  lemma TtlBoundary(name: string, f: Field, now: real)
    ensures name !in LoadCache(File(map[name := RawEntry(f, Some(now - 86400.0))]), now)
    ensures name in LoadCache(File(map[name := RawEntry(f, Some(now - 86399.0))]), now)
  {
    var keep := File(map[name := RawEntry(f, Some(now - 86399.0))]);
    assert Fresh(keep.entries[name].timestamp.value, now);
  }

  /** One entry whose timestamp cannot be read empties the whole loaded cache. */
  lemma UnreadableTimestampEmptiesCache(entries: map<string, RawEntry>, bad: string, now: real)
    requires bad in entries && entries[bad].timestamp.None?
    ensures LoadCache(File(entries), now) == map[]
  {
  }

  /** If every name in the file is lower case, it stays so after a resolution. */
  lemma PersistKeepsKeysLowerCase(store: Store, bankName: string, now: real, stampTime: real, saveOk: bool)
    requires store.File? ==> forall k :: k in store.entries ==> IsLower(k)
    ensures var after := Persist(store, GetRoutingNumber(store, bankName, now, stampTime), saveOk);
      after.File? ==> forall k :: k in after.entries ==> IsLower(k)
  {
    LowerIsLower(bankName);
  }
}

=== FILE: routing_validator.dfy ===
/** The ABA routing-transit number check of `validate_routing_number.py`:
    nine ASCII digits whose 3-7-1 weighted digit sum is a multiple of ten. */
module RoutingValidator {
  import opened Ascii
  import opened Outcomes

  const RoutingLength: nat := 9

  /** Weight of position `i`: 3, 7, 1, repeating from the left. */
  function Weight(i: nat): nat {
    if i % 3 == 0 then 3 else if i % 3 == 1 then 7 else 1
  }

  /** Sum of `Weight(i) * digit(i)` over the first `n` positions of `s`. */
  function WeightedSum(s: string, n: nat): int
    requires n <= |s| && AllDigits(s)
  {
    if n == 0 then 0 else WeightedSum(s, n - 1) + Weight(n - 1) * DigitValue(s[n - 1])
  }

  /** The digit at position `i` of a routing number. */
  function D(s: string, i: nat): nat
    requires i < |s| && AllDigits(s)
  {
    DigitValue(s[i])
  }

  /** The checksum exactly as the source groups it: 3, 7 and 1 times the sums
      of the three position classes. */
  function ClassChecksum(s: string): int
    requires |s| == RoutingLength && AllDigits(s)
  {
    3 * (D(s, 0) + D(s, 3) + D(s, 6)) + 7 * (D(s, 1) + D(s, 4) + D(s, 7)) + (D(s, 2) + D(s, 5) + D(s, 8))
  }

  /** `validate_routing_number(s)` for a string `s`. */
  function ValidateRoutingNumber(s: string): (ok: bool)
    ensures |s| != RoutingLength ==> !ok
    ensures |s| == RoutingLength && !AllDigits(s) ==> !ok
    ensures |s| == RoutingLength && AllDigits(s) ==> (ok <==> ClassChecksum(s) % 10 == 0)
  {
    if |s| != RoutingLength || !IsDigitString(s) then false
    else
      NineDigitSum(s);
      WeightedSum(s, RoutingLength) % 10 == 0
  }

  /** The positional fold over nine digits is the class-grouped checksum. */
  lemma NineDigitSum(s: string)
    requires |s| == RoutingLength && AllDigits(s)
    ensures WeightedSum(s, RoutingLength) == ClassChecksum(s)
  {
    assert WeightedSum(s, 9) == WeightedSum(s, 8) + D(s, 8);
    assert WeightedSum(s, 8) == WeightedSum(s, 7) + 7 * D(s, 7);
    assert WeightedSum(s, 7) == WeightedSum(s, 6) + 3 * D(s, 6);
    assert WeightedSum(s, 6) == WeightedSum(s, 5) + D(s, 5);
    assert WeightedSum(s, 5) == WeightedSum(s, 4) + 7 * D(s, 4);
    assert WeightedSum(s, 4) == WeightedSum(s, 3) + 3 * D(s, 3);
    assert WeightedSum(s, 3) == WeightedSum(s, 2) + D(s, 2);
    assert WeightedSum(s, 2) == WeightedSum(s, 1) + 7 * D(s, 1);
    assert WeightedSum(s, 1) == 3 * D(s, 0);
  }

  /** The routing number used for every payment of the banking layer passes the check. */
  lemma FixedRoutingNumberIsValid()
    ensures ValidateRoutingNumber("021000021")
  {
    var s := "021000021";
    assert AllDigits(s);
    assert ClassChecksum(s) == 30;
  }

  /** Nine digits with a bad checksum are rejected. */
  lemma SequentialDigitsRejected()
    ensures !ValidateRoutingNumber("123456789")
  {
    var s := "123456789";
    assert AllDigits(s);
    assert ClassChecksum(s) == 159;
  }

  /** Wrong lengths and non-digit characters are rejected. */
  lemma MalformedRejected()
    ensures !ValidateRoutingNumber("12345678")
    ensures !ValidateRoutingNumber("1234567890")
    ensures !ValidateRoutingNumber("12345678a")
    ensures !ValidateRoutingNumber("")
  {
    assert !IsDigit("12345678a"[8]);
  }

  /** Changing one digit changes the positional sum by that position's weight
      times the change. */
  lemma {:induction false} WeightedSumOneChange(s: string, t: string, k: nat, n: nat)
    requires |s| == |t| && AllDigits(s) && AllDigits(t)
    requires k < |s| && n <= |s|
    requires forall i :: 0 <= i < |s| && i != k ==> s[i] == t[i]
    ensures WeightedSum(t, n) == WeightedSum(s, n) + (if k < n then Weight(k) * (D(t, k) - D(s, k)) else 0)
  {
    if n > 0 {
      WeightedSumOneChange(s, t, k, n - 1);
    }
  }

  /** No multiple of ten is a weight (3, 7 or 1) times a non-zero digit difference. */
  lemma WeightTimesDifference(k: nat, delta: int)
    requires -9 <= delta <= 9 && delta != 0
    ensures (Weight(k) * delta) % 10 != 0
  {
  }

  /** Adding a multiple of ten does not change the last decimal digit. */
  lemma ShiftByMultipleOfTen(a: int, b: int)
    requires a % 10 == 0
    ensures (a + b) % 10 == b % 10
  {
  }

  /** For nine digits the validator's verdict is the positional fold's. */
  lemma ValidIffWeightedSum(s: string)
    requires |s| == RoutingLength && AllDigits(s)
    ensures ValidateRoutingNumber(s) <==> WeightedSum(s, RoutingLength) % 10 == 0
  {
  }

  /** The 3-7-1 weighting detects every single-digit error, whatever the length
      of the digit string: the weights 3, 7 and 1 are all coprime to ten. */
  lemma WeightedSumDetectsSingleError(s: string, t: string, k: nat)
    requires |t| == |s| && AllDigits(s) && AllDigits(t)
    requires k < |s| && t[k] != s[k]
    requires forall i :: 0 <= i < |s| && i != k ==> s[i] == t[i]
    ensures WeightedSum(s, |s|) % 10 == 0 ==> WeightedSum(t, |t|) % 10 != 0
  {
    WeightedSumOneChange(s, t, k, |s|);
    var delta := D(t, k) - D(s, k);
    assert delta != 0 by {
      DigitCharOfValue(s[k]);
      DigitCharOfValue(t[k]);
    }
    WeightTimesDifference(k, delta);
    if WeightedSum(s, |s|) % 10 == 0 {
      ShiftByMultipleOfTen(WeightedSum(s, |s|), Weight(k) * delta);
    }
  }

  /** Every single-digit error in a valid routing number is detected. */
  lemma SingleDigitErrorDetected(s: string, t: string, k: nat)
    requires ValidateRoutingNumber(s)
    requires |t| == |s| && AllDigits(t)
    requires k < |s| && t[k] != s[k]
    requires forall i :: 0 <= i < |s| && i != k ==> s[i] == t[i]
    ensures !ValidateRoutingNumber(t)
  {
    assert |s| == RoutingLength && AllDigits(s);
    ValidIffWeightedSum(s);
    ValidIffWeightedSum(t);
    WeightedSumDetectsSingleError(s, t, k);
  }

  /** A Python value handed to the validator: a string, another value that has
      a length (a list, say), or a value `len()` rejects (an int, `None`). */
  datatype Arg = Str(s: string) | Sized(length: nat) | Unsized

  /** `validate_routing_number(x)` for any value: `len(x)` raises for unsized
      values; a sized non-string of length 9 reaches `x.isdigit()`, which raises;
      any other length short-circuits to False. */
  function ValidateRoutingNumberOf(x: Arg): (r: Outcome<bool>)
    ensures x.Str? ==> r == Ok(ValidateRoutingNumber(x.s))
    ensures x.Unsized? ==> r.Exn?
    ensures x.Sized? ==> (r.Exn? <==> x.length == RoutingLength)
    ensures r != Ok(true) || x.Str?
  {
    match x
    case Str(s) => Ok(ValidateRoutingNumber(s))
    case Sized(n) => if n != RoutingLength then Ok(false) else Exn("AttributeError: no attribute 'isdigit'")
    case Unsized => Exn("TypeError: object has no len()")
  }
}
